=== FILE: README.md ===
# Smart resume formatter: a Dafny model of its core

This project models the core of a resume builder written in TypeScript (Next.js):

- **Editor state.** The `ResumeData` record holds personal info, experience and education entries, and a skill list. The editor changes it through ten operations (`components/resume-editor.tsx`).
- **Templates.** There are four templates (modern, classic, minimal, creative). The preview component picks one of them by name.
- **HTML export** (`app/api/export-pdf/route.tsx`). `generateResumeHTML` is reproduced string for string, including the whitespace of its template literal. The route's reply chain is modelled too: 400, 401, 404, or the download.
- **Share route** (`app/api/share/route.ts`). POST and DELETE are modelled as transitions over the `resumes` and `shared_resumes` tables.
- **Text-model routes.** These are `app/api/enhance/route.ts` and `app/api/generate-bullets/route.ts`. The model covers request validation and the exact prompts. The text model itself is a function parameter.

Modules follow the source layout:

| module | what it holds |
|---|---|
| `Resume` | the editor's data and operations |
| `Display` | the display tree a template produces, plus its shared text rules (placeholder name, date range, blank-skill filter) |
| `Modern`, `Classic`, `Minimal`, `Creative` | the four templates |
| `Preview` | the dispatch by template name |
| `ExportPdf` | the export route |
| `Share` | the share route |
| `Hex` | the hex encoding of share tokens |
| `Enhance` | the enhance route |
| `GenerateBullets` | the bullet-generation route |

Helper modules:

- `Wrappers`: `Option`
- `Seqs`: `Filter`, `Join`, `Concat`
- `Http`: replies, and JavaScript truthiness of request fields
- `Store`: the `resumes` table

JavaScript truthiness of a request field is modelled as `Option<string>`. A field is truthy when it is present and not the empty string.

A template renders to a `Display.Page`. A page has a heading, contact items, an optional summary, and one optional section each for experience, education and skills. A section is present exactly when its list is non-empty.

Each template's contract is a set of reference predicates (`ShowsHeader`, `ShowsJobs`, `ShowsSchools`, `ShowsSkillChips`, `ShowsSkillLine`). They state what every entry must show, independently of how the page is built. The templates differ in a few ways:

- the experience title: "Work Experience", "Professional Experience" or "Experience"
- whether the end date is shown (minimal shows the start date only)
- how skills are shown: chips, joined by " • ", or joined by ", "

The export is related to the templates in two steps. `ExportHtmlSerializesView` proves that the exported HTML is a serialization of a display tree, `ExportView`. `ExportMatchesModern` then relates that tree to the modern template.

## Model

| member | source | states |
|---|---|---|
| Resume.WithPersonal | components/resume-editor.tsx:60-68 | setting one personal-info field gives it the new value and keeps the other four |
| Resume.UpdatePersonalInfo | components/resume-editor.tsx:60-68 | `updatePersonalInfo` sets exactly the named field; experience, education and skills are unchanged |
| Resume.UpdatePersonalInfoLastWriteWins | components/resume-editor.tsx:60-68 | writing the same field twice leaves only the second value |
| Resume.UpdatePersonalInfoCommutes | components/resume-editor.tsx:60-68 | writes to two different fields commute |
| Resume.PersonalInfoExtensional | components/resume-editor.tsx:12-19 | two personal-info records that agree on all five fields are equal |
| Resume.DefaultDataIsEmpty | components/resume-editor.tsx:44-55 | a fresh editor has five empty personal fields and empty lists |
| Resume.AddExperience | components/resume-editor.tsx:70-85 | `addExperience` appends one blank entry with the given id; the older entries and the other parts are kept |
| Resume.WithExperience | components/resume-editor.tsx:87-92 | `{ ...exp, [field]: value }` sets the named field, including `id`; an unknown name leaves every typed field as it was |
| Resume.UpdateExperience | components/resume-editor.tsx:87-92 | `updateExperience` changes every entry whose id matches and only those; the list length is kept |
| Resume.WithExperienceIdempotent | components/resume-editor.tsx:90 | setting an entry field twice to the same value is the same as setting it once |
| Resume.UpdateExperienceIdempotent | components/resume-editor.tsx:87-92 | repeating an experience update changes nothing more |
| Resume.RemoveExperience | components/resume-editor.tsx:94-99 | `removeExperience` drops every entry with the id and keeps every other; removing an absent id changes nothing |
| Resume.RemoveExperienceKeepsOrder | components/resume-editor.tsx:97 | removal distributes over concatenation, so survivors keep their relative order |
| Resume.RemoveUndoesAddExperience | components/resume-editor.tsx:70-99 | adding an entry with a fresh id and then removing that id restores the data |
| Resume.AddEducation | components/resume-editor.tsx:101-115 | `addEducation` appends one blank entry with the given id and keeps the rest |
| Resume.WithEducation | components/resume-editor.tsx:117-122 | an education field update sets the named field; an unknown name changes nothing |
| Resume.UpdateEducation | components/resume-editor.tsx:117-122 | `updateEducation` changes exactly the entries whose id matches |
| Resume.WithEducationIdempotent | components/resume-editor.tsx:120 | setting an education field twice to the same value is the same as once |
| Resume.UpdateEducationIdempotent | components/resume-editor.tsx:117-122 | repeating an education update changes nothing more |
| Resume.RemoveEducation | components/resume-editor.tsx:124-129 | `removeEducation` drops every entry with the id and keeps every other |
| Resume.RemoveEducationKeepsOrder | components/resume-editor.tsx:127 | education removal distributes over concatenation |
| Resume.RemoveUndoesAddEducation | components/resume-editor.tsx:101-129 | adding an entry with a fresh id and then removing that id restores the data |
| Resume.AddSkill | components/resume-editor.tsx:131-136 | `addSkill` appends one empty skill and keeps the others |
| Resume.UpdateSkill | components/resume-editor.tsx:138-145 | `updateSkill` replaces the skill at an index in range and no other, appends at the index just past the end, and changes nothing at a negative index |
| Resume.UpdateSkillPastTheEndAdds | components/resume-editor.tsx:131-145 | writing just past the end is the same as adding an empty skill and then filling it in |
| Resume.UpdateSkillWithSameValue | components/resume-editor.tsx:138-145 | writing back a skill's own value changes nothing |
| Resume.RemoveSkill | components/resume-editor.tsx:147-152 | `removeSkill` drops the skill at an index in range and shifts the later ones down; any other index changes nothing |
| Resume.RemoveUndoesAddSkill | components/resume-editor.tsx:131-152 | removing the skill just added restores the data |
| Seqs.Filter | components/resume-editor.tsx:97 | `Array.filter`: every kept element satisfies the test and comes from the input; every input element that satisfies it is kept; a list whose elements all pass comes back unchanged |
| Seqs.FilterAppend | components/resume-editor.tsx:97 | filtering distributes over concatenation |
| Seqs.FilterDropsAll | components/resume-editor.tsx:97 | a filter that no element passes returns the empty list |
| Seqs.FilterThree | components/templates/modern-template.tsx:17-34 | filtering three items keeps those that pass, in order |
| Seqs.Join | components/templates/classic-template.tsx:100 | `Array.join`: the length is the item lengths plus one separator between neighbours; the text starts with the first item |
| Seqs.JoinAppend | components/templates/classic-template.tsx:100 | joining two non-empty lists puts one separator between their joins |
| Seqs.JoinEmpty | components/templates/classic-template.tsx:100 | with a non-empty separator, a join is empty exactly when there is no item or one empty item |
| Seqs.Concat | app/api/export-pdf/route.tsx:94-105 | `.join("")`: the length is the sum of the item lengths |
| Seqs.JoinNothingIsConcat | app/api/export-pdf/route.tsx:94-105 | joining with the empty separator is concatenation |
| Display.Headers | components/templates/modern-template.tsx:46-111 | a page shows at most three section headers, and none exactly when all three sections are absent |
| Display.NameOrPlaceholder | components/templates/modern-template.tsx:15 | `fullName \|\| "Your Name"` is never empty, is the name when one is given, and is "Your Name" otherwise |
| Display.DateRange | components/templates/modern-template.tsx:60-62 | a date range starts with the start date followed by " - " |
| Display.DateRangeShowsEnd | components/templates/modern-template.tsx:61 | an empty end date reads "Present"; any other end date is shown as is |
| Display.DateRangeDeterminesEnd | components/templates/modern-template.tsx:61 | two end dates give the same range only if they are equal or are "" and "Present" |
| Display.DateRangeExamples | components/templates/modern-template.tsx:61 | two sample date ranges: one with no end reads "... - Present", one with an end shows it |
| Display.NonBlank | components/templates/modern-template.tsx:101-108 | the blank-skill filter keeps exactly the non-empty skills |
| Display.NonBlankSingleton | components/templates/modern-template.tsx:103 | one skill is kept exactly when it is non-empty |
| Display.NonBlankAppend | components/templates/modern-template.tsx:101-108 | the blank-skill filter distributes over concatenation, so order is kept |
| Display.NonBlankExample | components/templates/classic-template.tsx:100 | ["Go", "", "Rust", ""] filters to ["Go", "Rust"] |
| Display.NonBlankOfBlanks | components/templates/classic-template.tsx:100 | a list of blank skills filters to nothing |
| Display.ContactItemsInOrder | components/templates/modern-template.tsx:16-35 | contact shows email, phone and location in that order, each only when non-empty |
| Display.JobEntries | components/templates/modern-template.tsx:53-66 | one display entry per experience entry, in order |
| Display.JobEntriesShowJobs | components/templates/modern-template.tsx:53-66 | every experience entry is shown with its position, company, date and description when present |
| Display.JobsSection | components/templates/modern-template.tsx:46-69 | the experience section is present exactly when there is an entry, and shows each entry in order |
| Display.SchoolEntries | components/templates/modern-template.tsx:79-91 | one display entry per education entry, in order |
| Display.SchoolEntriesShowSchools | components/templates/modern-template.tsx:79-91 | every education entry is shown as "degree in field", then school and graduation date |
| Display.SchoolsSection | components/templates/modern-template.tsx:72-94 | the education section is present exactly when there is an entry |
| Display.SkillsSection | components/templates/modern-template.tsx:97-111 | the skills section is present exactly when the list is non-empty, and shows the non-blank skills as chips or as one joined line |
| Display.Layout | components/templates/modern-template.tsx:10-113 | a page meets every reference predicate for header, experience, education and skills |
| Modern.ModernTemplate | components/templates/modern-template.tsx:10-113 | shows the header rules, "Work Experience" with full date ranges, education, and non-blank skills as chips |
| Classic.ClassicTemplate | components/templates/classic-template.tsx:10-103 | shows "Professional Experience" with full date ranges, and skills joined by " • " |
| Minimal.MinimalTemplate | components/templates/minimal-template.tsx:9-75 | shows "Experience" with the start date only, and skills joined by ", " |
| Creative.CreativeTemplate | components/templates/creative-template.tsx:10-109 | shows "Experience" with full date ranges, and skills as chips |
| Preview.Render | components/resume-preview.tsx:16-26 | each template id renders its template: all four show the header and education rules; they differ in experience title, end dates, and chips versus a joined skill line |
| Preview.TemplateNamed | components/resume-preview.tsx:16-26 | "classic", "minimal" and "creative" pick their templates; every other name picks modern |
| Preview.TemplateNameRoundTrip | components/resume-preview.tsx:16-26 | each template's own name selects that template |
| Preview.ResumePreview | components/resume-preview.tsx:14-30 | the preview renders the named template; an omitted or unknown name renders modern |
| Preview.UnknownTemplateRendersAsModern | components/resume-preview.tsx:23-25 | "gothic" renders exactly as "modern" and as no template at all |
| Preview.EveryTemplateShowsTheData | components/resume-preview.tsx:14-30 | all four templates show the same header and education, and each shows its sections exactly when the lists are non-empty |
| Preview.ShownSkillsOf | components/resume-preview.tsx:14-30 | modern and creative show the non-blank skills as chips; classic and minimal show them joined by their separators |
| Preview.BlankSkillsAreFiltered | components/templates/classic-template.tsx:95-102 | ["Go", "", "Rust", ""] shows Go and Rust, as chips, "Go • Rust" or "Go, Rust" |
| Preview.JoinTwo | components/templates/minimal-template.tsx:72 | two skills are joined with one separator between them |
| Preview.BlankSkillsKeepTheHeader | components/templates/modern-template.tsx:97-111 | a non-empty list of blank skills still shows the "Skills" header, with nothing or an empty line under it |
| Preview.OnlyANameRendersNoSections | components/templates/modern-template.tsx:15-111 | a resume holding only a name shows that name and no section header, in every template |
| Preview.DefaultDataRendersPlaceholder | components/resume-editor.tsx:44-55 | a fresh editor previews as "Your Name" with no contact, summary or section |
| Store.OwnedResume | app/api/export-pdf/route.tsx:21-30 | the owner-scoped lookup finds a row exactly when the read succeeds and the id exists and belongs to the user; a failed read counts as no row (`error \|\| !resume`) |
| ExportPdf.GenerateResumeHtml | app/api/export-pdf/route.tsx:48-147 | the document text, literal piece for literal piece; what it shows is stated by `ExportHtmlSerializesView` |
| ExportPdf.SummaryHtml | app/api/export-pdf/route.tsx:87 | the summary paragraph is empty exactly when the summary is |
| ExportPdf.ExperienceSectionHtml | app/api/export-pdf/route.tsx:89-109 | the experience block is empty exactly when there are no entries; otherwise it opens with the "Work Experience" section |
| ExportPdf.EducationSectionHtml | app/api/export-pdf/route.tsx:111-130 | the education block is empty exactly when there are no entries; otherwise it opens with the "Education" section |
| ExportPdf.SkillsSectionHtml | app/api/export-pdf/route.tsx:132-143 | the skills block is empty exactly when the list is; otherwise it opens with the "Skills" section |
| ExportPdf.TagsHtml | app/api/export-pdf/route.tsx:138 | the tag markup length is the fixed tag overhead per skill plus the skill lengths |
| ExportPdf.TagsHtmlAppend | app/api/export-pdf/route.tsx:138 | skill tags distribute over list append |
| ExportPdf.BlankSkillMakesEmptyTag | app/api/export-pdf/route.tsx:138 | unlike the templates, the export writes an empty tag for a blank skill |
| ExportPdf.JobsHtmlAppend | app/api/export-pdf/route.tsx:94-105 | entry markup distributes over list append |
| ExportPdf.SchoolsHtmlAppend | app/api/export-pdf/route.tsx:116-126 | education markup distributes over list append |
| ExportPdf.JobsHtmlIsJoin | app/api/export-pdf/route.tsx:94-105 | the experience markup is the `join("")` of one block per entry, in order |
| ExportPdf.SchoolsHtmlIsJoin | app/api/export-pdf/route.tsx:116-126 | the education markup is the `join("")` of one block per entry, in order |
| ExportPdf.TagsHtmlIsJoin | app/api/export-pdf/route.tsx:138 | the skill tags are the `join("")` of one tag per skill, in order |
| ExportPdf.ContactLeadingBar | app/api/export-pdf/route.tsx:80-84 | with no email but a phone, the contact line starts with "\| " and the phone |
| ExportPdf.ExportView | app/api/export-pdf/route.tsx:76-143 | the export's display tree has the placeholder heading and three contact slots; it shows each job and school, and every skill including blanks |
| ExportPdf.ContactAgrees | app/api/export-pdf/route.tsx:80-84 | the contact markup is the three contact slots joined by the literal's line break |
| ExportPdf.JobsAgree | app/api/export-pdf/route.tsx:94-105 | the experience markup serializes the same entries the templates build |
| ExportPdf.SchoolsAgree | app/api/export-pdf/route.tsx:116-126 | the education markup serializes the same entries the templates build |
| ExportPdf.ExportHtmlSerializesView | app/api/export-pdf/route.tsx:48-147 | the exported HTML is the serialization of the export's display tree, titled with the raw name |
| ExportPdf.ExportPostDisposition | app/api/export-pdf/route.tsx:36-41 | the unfolding of `Disposition` for a file name `title + ".html"` (the name `ExportPost` gives every download): `attachment; filename="{title}.html"` |
| ExportPdf.ExportIgnoresTemplate | app/api/export-pdf/route.tsx:48-147 | the template argument has no effect on the HTML |
| ExportPdf.ExportMatchesModern | app/api/export-pdf/route.tsx:48-147 | the export shows the modern template's heading, summary, experience and education, and its skill chips plus the blank ones |
| ExportPdf.ExportPost | app/api/export-pdf/route.tsx:3-46 | a missing id gives 400, no user 401, a resume not owned or a failed read 404; otherwise a text/html download named after the title, holding the HTML generated from the stored content and template id |
| Hex.Digit | app/api/share/route.ts:46 | each nibble becomes a lowercase hex digit |
| Hex.DigitValue | app/api/share/route.ts:46 | a character has a digit value exactly when it is a lowercase hex digit, and that value maps back to it |
| Hex.Encode | app/api/share/route.ts:46 | `toString("hex")` writes two hex digits per byte |
| Hex.DecodeEncode | app/api/share/route.ts:46 | decoding the hex text gives back the bytes, so distinct random bytes give distinct tokens |
| Hex.SixteenBytesMakeAToken | app/api/share/route.ts:46 | 16 random bytes encode to a 32-digit token |
| Share.RowsFor | app/api/share/route.ts:35-39 | the share rows of a resume are exactly the table rows with that resume id |
| Share.RowsForNone | app/api/share/route.ts:35-39 | a resume with no row in the table has no share rows |
| Share.RowsForAppend | app/api/share/route.ts:35-39 | the share-row query distributes over table append |
| Share.ExistingToken | app/api/share/route.ts:35-43 | `.single()` yields a token exactly when one row matches, and that row is in the table |
| Share.SharePost | app/api/share/route.ts:4-60 | POST checks for a missing id (400), no user (401) and an unowned or unreadable resume (404); it returns the token the lookup finds unchanged, or else appends a row with a fresh hex token, even when the lookup only failed; a failed insert gives 500; a failure changes no table |
| Share.Lookup | app/api/share/route.ts:35-43 | the existing-share lookup yields a token exactly when the read succeeds and one row matches; a failed read looks like no share, because the handler drops its `error` |
| Share.ShareDelete | app/api/share/route.ts:62-89 | DELETE checks for a missing id (400) and no user (401); it removes every share row of the resume and keeps all others; a failed delete gives 500 with no change |
| Share.Valid | app/api/share/route.ts:34-51 | the table invariant the handlers aim at: at most one share row per resume, and every token 32 lowercase hex digits |
| Share.AtMostOneRow | app/api/share/route.ts:34-51 | under the table invariant a resume has at most one share row |
| Share.FilterKeepsValid | app/api/share/route.ts:80 | deleting the rows of one resume keeps the table invariant |
| Share.SharePostKeepsValid | app/api/share/route.ts:4-60 | POST keeps the invariant (one row per resume, every token 32 hex digits) unless a failed lookup hides the resume's existing share |
| Share.FailedLookupBreaksValid | app/api/share/route.ts:35-51 | a failed lookup on a shared resume inserts a second row with a new token and breaks the invariant, with requests taken one at a time |
| Share.ShareDeleteKeepsValid | app/api/share/route.ts:62-89 | DELETE keeps the invariant |
| Share.SharePostReturnsToken | app/api/share/route.ts:41-55 | under the invariant, every token POST returns is 32 hex digits |
| Share.SharePostRecordsToken | app/api/share/route.ts:41-55 | after a successful POST the resume has exactly one share row, holding the returned token, unless a failed lookup hid an existing row |
| Share.SharePostKeepsOthers | app/api/share/route.ts:48-51 | a POST, successful or not, leaves the share rows of every other resume as they were |
| Share.SharePostIdempotent | app/api/share/route.ts:34-43 | a second POST whose reads succeed returns the first POST's token and changes no table |
| Share.FailedLookupBreaksIdempotence | app/api/share/route.ts:35-51 | after a POST shares a resume, a second POST whose lookup fails returns a different token and leaves the table outside the invariant |
| Share.SharePostWithDuplicateRows | app/api/share/route.ts:35-51 | if the table already holds two rows for a resume, `.single()` finds none and POST inserts a third |
| Share.ShareDeleteKeepsOthers | app/api/share/route.ts:80-84 | DELETE succeeds even with no share and leaves other resumes' rows as they were |
| Share.DeleteKeepsOthersRows | app/api/share/route.ts:80 | deleting one resume's rows keeps each other resume's rows, in order |
| Share.ShareDeleteIgnoresOwner | app/api/share/route.ts:62-89 | DELETE does not check ownership: any signed-in user gets the same result |
| Enhance.KindNamed | app/api/enhance/route.ts:13-25 | exactly "enhance", "expand" and "tailor" are enhancement types, mapped to the improve, expand and tailor instructions |
| Enhance.EnhancePrompt | app/api/enhance/route.ts:5-25 | an empty text gives 400 "Text is required" before the type is looked at; an unknown type gives 400; otherwise the prompt is the type's instruction, a blank line and the text |
| Enhance.EnhanceText | app/api/enhance/route.ts:3-39 | a rejection is answered without the model; a model failure gives 500 "Failed to enhance text" |
| Enhance.PrefixesDiffer | app/api/enhance/route.ts:15-21 | the three instructions start with different letters |
| Enhance.ParsePromptRoundTrip | app/api/enhance/route.ts:13-25 | the enhancement type and the text can be read back from any prompt |
| Enhance.EnhancePromptInjective | app/api/enhance/route.ts:13-25 | different valid requests never send the same prompt: equal prompts mean equal type and text |
| Enhance.RejectionsSkipTheModel | app/api/enhance/route.ts:7-25 | a rejected request gets the same answer whatever the model does |
| GenerateBullets.ContextSegment | app/api/generate-bullets/route.ts:11 | the context part is empty exactly when the description is falsy |
| GenerateBullets.BulletsPrompt | app/api/generate-bullets/route.ts:5-11 | a falsy job title or company gives 400; otherwise the prompt embeds both and the optional context |
| GenerateBullets.GenerateBulletsText | app/api/generate-bullets/route.ts:3-25 | a rejection is answered without the model; a model failure gives 500 "Failed to generate bullets" |
| GenerateBullets.PromptNamesTheJob | app/api/generate-bullets/route.ts:11 | the prompt opens with "... as a {jobTitle} at {company}. ", both verbatim |
| GenerateBullets.PromptEndsWithFormat | app/api/generate-bullets/route.ts:11 | the prompt always ends with "Format as a numbered list." |
| GenerateBullets.NoDescriptionLeavesDoubleSpace | app/api/generate-bullets/route.ts:11 | without a description the prompt has two spaces after the company's full stop |
| GenerateBullets.PromptDeterminesDescription | app/api/generate-bullets/route.ts:11 | for a fixed job the prompt reveals whether there was a description, and if so which |

## Left out

- Supabase (auth, queries, inserts and deletes) is not modelled as I/O. The signed-in user is an `Option<string>` parameter. The `resumes` table is a map and `shared_resumes` is a sequence of rows. Each database call that can report an error has a boolean failure parameter: the resume reads of both routes (a failure gives 404), the share lookup (a failure looks like no share, so POST inserts another row), the insert and the delete.
- `randomBytes(16)` is a parameter of `Share.SharePost`, and the model only assumes its length is 16. `Date.now()` ids are a parameter of `AddExperience` and `AddEducation`.
- The text model (`generateText`) is a parameter that maps a prompt to an optional answer. Model name, temperature and token limits are not modelled.
- Failures of `request.json()` and exceptions from malformed stored content are not modelled. In the routes these land in the `catch` branch and give a 500. The same goes for the export route's `"Failed to export resume"`, which only that branch produces.
- Resume.UpdateSkill: requires an index no greater than the list length. The editor only passes indices of existing skills. A write more than one place past the end would leave holes in the JavaScript array, which a sequence cannot hold.
- Resume.WithExperience: an unknown field name adds a stray key to the JavaScript object that no reader looks at. The model keeps the typed record unchanged instead.
- Resume.WithEducation: an unknown field name adds a stray key to the JavaScript object that no reader looks at. The model keeps the typed record unchanged instead.
- Tailwind classes, icons and layout of the templates are not modelled. The page model keeps only the text each template shows and the order it shows it in.
- In the export, the CSS and the document shell are reproduced as literal constants. The verifier does not reason about their content.
- The editor's React form is not modelled: it only binds inputs to the ten operations above.
- The `AIEnhancementPanel` callbacks are not modelled. `onEnhance` only logs the enhanced text (components/resume-editor.tsx:157-160). `onTailor` replaces the whole resume with whatever `JSON.parse` makes of the tailor-resume reply, without validating it (components/resume-editor.tsx:161-163, components/ai-enhancement-panel.tsx:82-83). Its input comes from the text model through the tailor-resume route, which is left out, so the model has nothing to say about the resume it installs.
- The dashboard is not modelled. It loads the user's resumes newest-updated first (app/dashboard/page.tsx:39-45) and drops a deleted resume from its local list (app/dashboard/page.tsx:57-59); both are database reads and list filtering around pages outside the core.
- The template selector only hands the chosen template id to its caller (components/template-selector.tsx:46), and the share panel only calls the export and share routes modelled above and copies the link to the clipboard (components/export-share-panel.tsx:23, 47, 65, 79-83). Neither is modelled.
- The public share page `app/share/[token]/page.tsx` is not part of this model. Neither is token expiry, which the share route never sets or checks.
- The `tailor-resume` route is not part of this model.
- HTML escaping is absent in the export. Names, dates and skills are inserted verbatim, and the model does the same.
- Blank skills are modelled as the code treats them. The four templates filter blank skills out of the list but still show the "Skills" header when every skill is blank (`Preview.BlankSkillsKeepTheHeader`). The export writes an empty tag for each blank skill (`ExportPdf.BlankSkillMakesEmptyTag`).
- Each route handler is modelled as one atomic step, and interleavings of concurrent requests are not modelled. The share POST reads the existing share (app/api/share/route.ts:35-39) and inserts later (:48-51) with no transaction, and no unique constraint is visible. Two concurrent POSTs for an unshared resume can therefore both insert. That reaches the two-row state of `Share.SharePostWithDuplicateRows`, where `.single()` finds nothing and a further POST inserts a third row. `Share.Valid` is kept only for requests taken one at a time whose share lookups succeed. A single failed lookup breaks it even without concurrency (`Share.FailedLookupBreaksValid`).
- The export uses the modern layout whatever `template_id` says, and the model keeps that (`ExportPdf.ExportIgnoresTemplate`).

=== FILE: classic.dfy ===
/** The "classic" preview template. */
module Classic {
  import opened Resume
  import opened Display

  const Bullet := " \U{2022} "

  /** Heading with placeholder, contact items, summary, a "Professional
      Experience" section with start-to-end dates, "Education", and one line
      of the non-empty skills joined by " • ". */
  function ClassicTemplate(d: ResumeData): (p: Page)
    ensures ShowsHeader(p, d.personalInfo)
    ensures ShowsJobs(p.experience, "Professional Experience", d.experience, false)
    ensures ShowsSchools(p.education, d.education)
    ensures ShowsSkillLine(p.skills, d.skills, " \U{2022} ")
  {
    Layout(d, "Professional Experience", false, Joined(Bullet))
  }
}

=== FILE: creative.dfy ===
/** The "creative" preview template. */
module Creative {
  import opened Resume
  import opened Display

  /** Heading with placeholder, contact items, summary, an "Experience"
      section with start-to-end dates, "Education", and skills as chips. */
  function CreativeTemplate(d: ResumeData): (p: Page)
    ensures ShowsHeader(p, d.personalInfo)
    ensures ShowsJobs(p.experience, "Experience", d.experience, false)
    ensures ShowsSchools(p.education, d.education)
    ensures ShowsSkillChips(p.skills, d.skills)
  {
    Layout(d, "Experience", false, AsChips)
  }
}

=== FILE: display.dfy ===
/** The display tree the four preview templates produce, with CSS, icons and
    layout abstracted away, and the text rules all templates share. */
module Display {
  import opened Wrappers
  import opened Resume
  import Seqs

  /** One experience or education block: a bold title line, a subtitle line,
      the right-aligned date text and an optional description paragraph. */
  datatype Entry = Entry(title: string, subtitle: string, date: string, description: Option<string>)

  /** What a section shows under its header: entry blocks, skill chips, or one line of text. */
  datatype Body = Entries(entries: seq<Entry>) | Chips(chips: seq<string>) | Line(text: string)

  datatype Section = Section(title: string, body: Body)

  /** A rendered resume, top to bottom: the name heading, the contact items,
      the summary paragraph and the experience, education and skills sections;
      `None` is a block that is not rendered at all. */
  datatype Page = Page(
    heading: string,
    contact: seq<string>,
    summary: Option<string>,
    experience: Option<Section>,
    education: Option<Section>,
    skills: Option<Section>)

  /** The headers of the sections a page shows, in display order. */
  function Headers(p: Page): (r: seq<string>)
    ensures |r| <= 3
    ensures |r| == 0 <==> p.experience.None? && p.education.None? && p.skills.None?
  {
    (if p.experience.Some? then [p.experience.value.title] else [])
    + (if p.education.Some? then [p.education.value.title] else [])
    + (if p.skills.Some? then [p.skills.value.title] else [])
  }

  // ------------------------------------------------------- shared text rules

  const Placeholder := "Your Name"

  /** `fullName || "Your Name"`. */
  function NameOrPlaceholder(name: string): (r: string)
    ensures r != ""
    ensures name != "" ==> r == name
    ensures name == "" ==> r == Placeholder
  {
    if name != "" then name else Placeholder
  }

  /** `{startDate} {endDate ? `- ${endDate}` : "- Present"}`: an empty end date
      means the position is current. */
  function DateRange(start: string, end: string): (r: string)
    ensures |r| > |start| + 3 && r[..|start| + 3] == start + " - "
  {
    start + " " + (if end != "" then "- " + end else "- Present")
  }

  /** `{degree} in {field}`. */
  function DegreeTitle(e: Education): string {
    e.degree + " in " + e.field
  }

  /** The truthy strings of `xs` in order, as `filter((s) => s)` and as the
      chip maps that render nothing for an empty skill. */
  function NonBlank(xs: seq<string>): (r: seq<string>)
    ensures forall i :: 0 <= i < |r| ==> r[i] != "" && r[i] in xs
    ensures forall i :: 0 <= i < |xs| && xs[i] != "" ==> xs[i] in r
  {
    Seqs.Filter((s: string) => s != "", xs)
  }

  /** The email, phone and location items, each only when non-empty. */
  function ContactItems(p: PersonalInfo): seq<string> {
    NonBlank([p.email, p.phone, p.location])
  }

  function SummaryBlock(p: PersonalInfo): Option<string> {
    if p.summary != "" then Some(p.summary) else None
  }

  function JobEntry(x: Experience, startOnly: bool): Entry {
    Entry(
      x.position,
      x.company,
      if startOnly then x.startDate else DateRange(x.startDate, x.endDate),
      if x.description != "" then Some(x.description) else None)
  }

  function SchoolEntry(e: Education): Entry {
    Entry(DegreeTitle(e), e.school, e.graduationDate, None)
  }

  // ------------------------------------------------- what a page must show

  /** The date text of an experience entry: its start date alone, or the
      start followed by the end date or by "Present". */
  ghost predicate ShowsDate(date: string, x: Experience, startOnly: bool) {
    if startOnly then date == x.startDate
    else if x.endDate == "" then date == x.startDate + " - Present"
    else date == x.startDate + " - " + x.endDate
  }

  /** The heading, contact items and summary of a page agree with `info`. */
  ghost predicate ShowsHeader(p: Page, info: PersonalInfo) {
    && (info.fullName != "" ==> p.heading == info.fullName)
    && (info.fullName == "" ==> p.heading == "Your Name")
    && p.contact == (if info.email != "" then [info.email] else [])
                  + (if info.phone != "" then [info.phone] else [])
                  + (if info.location != "" then [info.location] else [])
    && (p.summary.Some? <==> info.summary != "")
    && (p.summary.Some? ==> p.summary.value == info.summary)
  }

  ghost predicate ShowsJob(e: Entry, x: Experience, startOnly: bool) {
    && e.title == x.position
    && e.subtitle == x.company
    && ShowsDate(e.date, x, startOnly)
    && (e.description.Some? <==> x.description != "")
    && (e.description.Some? ==> e.description.value == x.description)
  }

  /** The experience section is present iff there are entries, and then shows
      one block per entry in order. */
  ghost predicate ShowsJobs(s: Option<Section>, title: string, xs: seq<Experience>, startOnly: bool) {
    && (s.Some? <==> |xs| > 0)
    && (s.Some? ==>
          && s.value.title == title
          && s.value.body.Entries?
          && |s.value.body.entries| == |xs|
          && forall i :: 0 <= i < |xs| ==> ShowsJob(s.value.body.entries[i], xs[i], startOnly))
  }

  ghost predicate ShowsSchool(e: Entry, x: Education) {
    && e.title == x.degree + " in " + x.field
    && e.subtitle == x.school
    && e.date == x.graduationDate
    && e.description.None?
  }

  /** The education section is present iff there are entries, and then shows
      one "degree in field" block per entry in order. */
  ghost predicate ShowsSchools(s: Option<Section>, xs: seq<Education>) {
    && (s.Some? <==> |xs| > 0)
    && (s.Some? ==>
          && s.value.title == "Education"
          && s.value.body.Entries?
          && |s.value.body.entries| == |xs|
          && forall i :: 0 <= i < |xs| ==> ShowsSchool(s.value.body.entries[i], xs[i]))
  }

  /** The skills section is present iff the skill list is non-empty (blank or
      not), and then shows the non-empty skills as chips. */
  ghost predicate ShowsSkillChips(s: Option<Section>, skills: seq<string>) {
    && (s.Some? <==> |skills| > 0)
    && (s.Some? ==> s.value == Section("Skills", Chips(NonBlank(skills))))
  }

  /** As `ShowsSkillChips`, but the non-empty skills are joined with `sep` into one line. */
  ghost predicate ShowsSkillLine(s: Option<Section>, skills: seq<string>, sep: string) {
    && (s.Some? <==> |skills| > 0)
    && (s.Some? ==> s.value == Section("Skills", Line(Seqs.Join(NonBlank(skills), sep))))
  }

  // ------------------------------------------------------ the shared layout

  /** How a template shows its skills. */
  datatype SkillStyle = AsChips | Joined(sep: string)

  /** The block structure all four templates share; they differ in the
      experience header, whether the end date is shown, and the skills style. */
  function Layout(d: ResumeData, jobsTitle: string, startOnly: bool, style: SkillStyle): (p: Page)
    ensures ShowsHeader(p, d.personalInfo)
    ensures ShowsJobs(p.experience, jobsTitle, d.experience, startOnly)
    ensures ShowsSchools(p.education, d.education)
    ensures style.AsChips? ==> ShowsSkillChips(p.skills, d.skills)
    ensures style.Joined? ==> ShowsSkillLine(p.skills, d.skills, style.sep)
  {
    var info := d.personalInfo;
    ContactItemsInOrder(info);
    Page(
      NameOrPlaceholder(info.fullName),
      ContactItems(info),
      SummaryBlock(info),
      JobsSection(jobsTitle, d.experience, startOnly),
      SchoolsSection(d.education),
      SkillsSection(d.skills, style))
  }

  function JobsSection(title: string, xs: seq<Experience>, startOnly: bool): (s: Option<Section>)
    ensures ShowsJobs(s, title, xs, startOnly)
  {
    if |xs| == 0 then None
    else
      JobEntriesShowJobs(xs, startOnly);
      Some(Section(title, Entries(JobEntries(xs, startOnly))))
  }

  /** One entry block per experience entry, in order. */
  function JobEntries(xs: seq<Experience>, startOnly: bool): (es: seq<Entry>)
    ensures |es| == |xs|
    ensures forall i :: 0 <= i < |xs| ==> es[i] == JobEntry(xs[i], startOnly)
  {
    if |xs| == 0 then [] else [JobEntry(xs[0], startOnly)] + JobEntries(xs[1..], startOnly)
  }

  function SchoolsSection(es: seq<Education>): (s: Option<Section>)
    ensures ShowsSchools(s, es)
  {
    if |es| == 0 then None
    else
      SchoolEntriesShowSchools(es);
      Some(Section("Education", Entries(SchoolEntries(es))))
  }

  /** One entry block per education entry, in order. */
  function SchoolEntries(es: seq<Education>): (r: seq<Entry>)
    ensures |r| == |es|
    ensures forall i :: 0 <= i < |es| ==> r[i] == SchoolEntry(es[i])
  {
    if |es| == 0 then [] else [SchoolEntry(es[0])] + SchoolEntries(es[1..])
  }

  function SkillsSection(skills: seq<string>, style: SkillStyle): (s: Option<Section>)
    ensures style.AsChips? ==> ShowsSkillChips(s, skills)
    ensures style.Joined? ==> ShowsSkillLine(s, skills, style.sep)
  {
    if |skills| == 0 then None
    else match style
      case AsChips => Some(Section("Skills", Chips(NonBlank(skills))))
      case Joined(sep) => Some(Section("Skills", Line(Seqs.Join(NonBlank(skills), sep))))
  }

  // ----------------------------------------------------------------- lemmas

  lemma JobEntriesShowJobs(xs: seq<Experience>, startOnly: bool)
    ensures forall i :: 0 <= i < |xs| ==> ShowsJob(JobEntries(xs, startOnly)[i], xs[i], startOnly)
  {
    forall i | 0 <= i < |xs|
      ensures ShowsJob(JobEntries(xs, startOnly)[i], xs[i], startOnly)
    {
      assert JobEntries(xs, startOnly)[i] == JobEntry(xs[i], startOnly);
    }
  }

  lemma SchoolEntriesShowSchools(es: seq<Education>)
    ensures forall i :: 0 <= i < |es| ==> ShowsSchool(SchoolEntries(es)[i], es[i])
  {
    forall i | 0 <= i < |es|
      ensures ShowsSchool(SchoolEntries(es)[i], es[i])
    {
      assert SchoolEntries(es)[i] == SchoolEntry(es[i]);
    }
  }

  /** Filtering the three contact fields keeps exactly the non-empty ones, in order. */
  lemma ContactItemsInOrder(p: PersonalInfo)
    ensures ContactItems(p) == (if p.email != "" then [p.email] else [])
                             + (if p.phone != "" then [p.phone] else [])
                             + (if p.location != "" then [p.location] else [])
  {
    Seqs.FilterThree((s: string) => s != "", p.email, p.phone, p.location);
  }

  lemma NonBlankSingleton(x: string)
    ensures NonBlank([x]) == (if x != "" then [x] else [])
  {
    assert [x][1..] == [];
  }

  /** The shown skills of a concatenation are the shown skills of each part, in order. */
  lemma NonBlankAppend(a: seq<string>, b: seq<string>)
    ensures NonBlank(a + b) == NonBlank(a) + NonBlank(b)
  {
    Seqs.FilterAppend((s: string) => s != "", a, b);
  }

  /** The blank skills of ["Go", "", "Rust", ""] are dropped and the order kept. */
  lemma NonBlankExample()
    ensures NonBlank(["Go", "", "Rust", ""]) == ["Go", "Rust"]
  {
    var keep := (s: string) => s != "";
    assert Seqs.Filter(keep, [""]) == [] by { assert [""][1..] == []; }
    assert Seqs.Filter(keep, ["Rust", ""]) == ["Rust"] by { assert ["Rust", ""][1..] == [""]; }
    assert Seqs.Filter(keep, ["", "Rust", ""]) == ["Rust"] by { assert ["", "Rust", ""][1..] == ["Rust", ""]; }
    assert Seqs.Filter(keep, ["Go", "", "Rust", ""]) == ["Go", "Rust"] by {
      assert ["Go", "", "Rust", ""][1..] == ["", "Rust", ""];
    }
  }

  /** A list of blank skills shows no skill at all (yet the header stays). */
  lemma NonBlankOfBlanks(xs: seq<string>)
    requires forall i :: 0 <= i < |xs| ==> xs[i] == ""
    ensures NonBlank(xs) == []
  {
    Seqs.FilterDropsAll((s: string) => s != "", xs);
  }

  /** The date text names the end date, or "Present" when it is empty. */
  lemma DateRangeShowsEnd(start: string, end: string)
    ensures end != "" ==> DateRange(start, end) == start + " - " + end
    ensures end == "" ==> DateRange(start, end) == start + " - Present"
  {
  }

  /** For a fixed start date the date text determines the end date, except that
      an empty end date and the literal end date "Present" read the same. */
  lemma DateRangeDeterminesEnd(start: string, end1: string, end2: string)
    requires DateRange(start, end1) == DateRange(start, end2)
    ensures end1 == end2 || {end1, end2} == {"", "Present"}
  {
    var t1 := if end1 != "" then end1 else "Present";
    var t2 := if end2 != "" then end2 else "Present";
    assert DateRange(start, end1) == (start + " - ") + t1;
    assert DateRange(start, end2) == (start + " - ") + t2;
    assert t1 == DateRange(start, end1)[|start| + 3..];
    assert t2 == DateRange(start, end2)[|start| + 3..];
  }

  /** Two sample date ranges, one open and one closed. */
  lemma DateRangeExamples()
    ensures DateRange("2020-01", "") == "2020-01 - Present"
    ensures DateRange("2020-01", "2022-06") == "2020-01 - 2022-06"
  {
  }
}

=== FILE: enhance.dfy ===
/** The text-enhancement route: validation of `text` and `type`, and the
    prompt each enhancement type sends to the text model. */
module Enhance {
  import opened Wrappers
  import opened Http

  datatype Kind = Improve | Expand | Tailor

  // Each instruction is written as its leading verb plus the rest of the
  // sentence: the verbs are what tell the three prompts apart.
  const ImprovePrefix := "Improve" + " the following resume text to be more professional, impactful, and ATS-friendly. Keep it concise but compelling:"
  const ExpandPrefix := "Expand" + " the following resume bullet point with more specific achievements and metrics:"
  const TailorPrefix := "Tailor" + " the following resume content to be more relevant for a job description. Make it more specific and impactful:"

  /** The `switch (type)`: only the three exact names are enhancement types. */
  function KindNamed(kind: Field): (k: Option<Kind>)
    ensures k.Some? <==> kind in {Some("enhance"), Some("expand"), Some("tailor")}
    ensures k == Some(Improve) <==> kind == Some("enhance")
    ensures k == Some(Expand) <==> kind == Some("expand")
    ensures k == Some(Tailor) <==> kind == Some("tailor")
  {
    match kind
    case Some("enhance") => Some(Improve)
    case Some("expand") => Some(Expand)
    case Some("tailor") => Some(Tailor)
    case _ => None
  }

  function Prefix(k: Kind): string {
    match k
    case Improve => ImprovePrefix
    case Expand => ExpandPrefix
    case Tailor => TailorPrefix
  }

  /** The prompt for a request, or the 400 it is rejected with: the text is
      checked before the type. */
  function EnhancePrompt(text: Field, kind: Field): (r: Reply<string>)
    ensures !Truthy(text) ==> r == Fail(400, "Text is required")
    ensures Truthy(text) && KindNamed(kind).None? ==> r == Fail(400, "Invalid enhancement type")
    ensures r.Ok? <==> Truthy(text) && KindNamed(kind).Some?
    ensures r.Ok? ==> r.value == Prefix(KindNamed(kind).value) + "\n\n" + text.value
  {
    if !Truthy(text) then Fail(400, "Text is required")
    else match KindNamed(kind)
      case None => Fail(400, "Invalid enhancement type")
      case Some(k) => Ok(Prefix(k) + "\n\n" + text.value)
  }

  /** The POST handler: a valid request is answered with the model's text; a
      rejected one never reaches the model; a model failure becomes a 500. */
  function EnhanceText(text: Field, kind: Field, generate: TextModel): (r: Reply<string>)
    ensures EnhancePrompt(text, kind).Fail? ==> r == EnhancePrompt(text, kind)
    ensures EnhancePrompt(text, kind).Ok? && generate(EnhancePrompt(text, kind).value).Some? ==>
      r == Ok(generate(EnhancePrompt(text, kind).value).value)
    ensures EnhancePrompt(text, kind).Ok? && generate(EnhancePrompt(text, kind).value).None? ==>
      r == Fail(500, "Failed to enhance text")
  {
    match EnhancePrompt(text, kind)
    case Fail(status, message) => Fail(status, message)
    case Ok(prompt) =>
      match generate(prompt)
      case Some(out) => Ok(out)
      case None => Fail(500, "Failed to enhance text")
  }

  /** Reads the type and the text back out of a prompt. */
  function ParsePrompt(prompt: string): Option<(Kind, string)> {
    if ImprovePrefix + "\n\n" <= prompt then Some((Improve, prompt[|ImprovePrefix| + 2..]))
    else if ExpandPrefix + "\n\n" <= prompt then Some((Expand, prompt[|ExpandPrefix| + 2..]))
    else if TailorPrefix + "\n\n" <= prompt then Some((Tailor, prompt[|TailorPrefix| + 2..]))
    else None
  }

  // ----------------------------------------------------------------- lemmas

  /** The three prefixes start with different letters, so no prompt of one
      type begins like a prompt of another. */
  lemma PrefixesDiffer()
    ensures ImprovePrefix[0] == 'I' && ExpandPrefix[0] == 'E' && TailorPrefix[0] == 'T'
  {
  }

  /** A prompt determines the type and the text it was built from. */
  lemma ParsePromptRoundTrip(text: Field, kind: Field)
    requires EnhancePrompt(text, kind).Ok?
    ensures ParsePrompt(EnhancePrompt(text, kind).value) == Some((KindNamed(kind).value, text.value))
  {
    var k := KindNamed(kind).value;
    var head := Prefix(k) + "\n\n";
    var p := EnhancePrompt(text, kind).value;
    assert p == head + text.value;
    assert p[0] == Prefix(k)[0];
    assert p[|head|..] == text.value;
    PrefixesDiffer();
  }

  /** Hence prompt construction is injective: different valid requests
      produce different prompts. */
  lemma EnhancePromptInjective(t1: Field, k1: Field, t2: Field, k2: Field)
    requires EnhancePrompt(t1, k1).Ok? && EnhancePrompt(t2, k2).Ok?
    requires EnhancePrompt(t1, k1) == EnhancePrompt(t2, k2)
    ensures k1 == k2 && t1 == t2
  {
    ParsePromptRoundTrip(t1, k1);
    ParsePromptRoundTrip(t2, k2);
  }

  /** A rejected request gets the same reply whatever the model would say. */
  lemma RejectionsSkipTheModel(text: Field, kind: Field, g1: TextModel, g2: TextModel)
    requires EnhancePrompt(text, kind).Fail?
    ensures EnhanceText(text, kind, g1) == EnhanceText(text, kind, g2)
  {
  }
}

=== FILE: export_pdf.dfy ===
/** The export route: the ordered validation and lookup chain of its POST
    handler and `generateResumeHTML`, the printable document it returns. */
module ExportPdf {
  import opened Wrappers
  import opened Resume
  import opened Display
  import opened Http
  import Store
  import Seqs
  import Modern

  // ------------------------------------------------- literal document text

  const DocOpen := "\n    <!DOCTYPE html>\n    <html>\n    <head>\n      <meta charset=\"UTF-8\">\n      <title>"

  const TitleClose :=
    " - Resume</title>\n      <style>\n        * { margin: 0; padding: 0; box-sizing: border-box; }\n        body { font-family: 'Segoe UI', Tahoma, Geneva, Verdana, sans-serif; line-height: 1.6; color: #333; }\n        .container { max-width: 8.5in; height: 11in; margin: 0 auto; padding: 0.5in; background: white; }\n        h1 { font-size: 28px; margin-bottom: 5px; }\n        h2 { font-size: 14px; font-weight: bold; margin-top: 15px; margin-bottom: 10px; border-bottom: 2px solid #333; padding-bottom: 5px; }\n        .header { margin-bottom: 15px; }\n        .contact { font-size: 12px; color: #666; margin-top: 5px; }\n        .section { margin-bottom: 15px; }\n        .entry { margin-bottom: 10px; }\n        .entry-title { font-weight: bold; }\n        .entry-subtitle { color: #666; font-size: 12px; }\n        .entry-date { float: right; color: #666; font-size: 12px; }\n        .entry-description { font-size: 12px; margin-top: 5px; }\n        .skills { display: flex; flex-wrap: wrap; gap: 8px; font-size: 12px; }\n        .skill-tag { background: #f0f0f0; padding: 4px 8px; border-radius: 4px; }\n        @media print { body { margin: 0; padding: 0; } .container { margin: 0; padding: 0.5in; } }\n      </style>\n    </head>\n    <body>\n      <div class=\"container\">\n        <div class=\"header\">\n          <h1>"

  const ContactOpen := "</h1>\n          <div class=\"contact\">\n            "
  const ContactGap := " \n            "
  const HeaderClose := "\n          </div>\n        </div>\n\n        "
  const SummaryOpen := "<p style=\"font-size: 12px; margin-bottom: 10px;\">"
  const SummaryClose := "</p>"
  const BlockGap := "\n\n        "
  const SectionOpen := "\n          <div class=\"section\">\n            <h2>"
  const SectionHeadClose := "</h2>\n            "
  const SectionClose := "\n          </div>\n        "
  const EntryOpen := "\n              <div class=\"entry\">\n                <div class=\"entry-title\">"
  const TitleToSubtitle := "</div>\n                <div class=\"entry-subtitle\">"
  const SubtitleToDate := "</div>\n                <div class=\"entry-date\">"
  const DateToDescription := "</div>\n                "
  const DescriptionToClose := "\n              </div>\n            "
  const DateToClose := "</div>\n              </div>\n            "
  const DescriptionOpen := "<div class=\"entry-description\">"
  const DescriptionClose := "</div>"
  const SkillsOpen := "<div class=\"skills\">\n              "
  const SkillsClose := "\n            </div>"
  const TagOpen := "<span class=\"skill-tag\">"
  const TagClose := "</span>"
  const DocClose := "\n      </div>\n    </body>\n    </html>\n  "

  // ------------------------------------------- the document, as written

  /** `generateResumeHTML(content, template)`. The template argument is never
      read, user text is embedded without escaping, and the document title
      uses the raw full name while the heading falls back to "Your Name". */
  function GenerateResumeHtml(content: ResumeData, template: string): string
  {
    var info := content.personalInfo;
    DocOpen + info.fullName + TitleClose + NameOrPlaceholder(info.fullName) + ContactOpen
    + ContactHtml(info) + HeaderClose
    + SummaryHtml(info) + BlockGap
    + ExperienceSectionHtml(content.experience) + BlockGap
    + EducationSectionHtml(content.education) + BlockGap
    + SkillsSectionHtml(content.skills)
    + DocClose
  }

  /** The three contact slots: the email, then "| phone", then "| location",
      each replaced by nothing when empty. */
  function ContactHtml(info: PersonalInfo): string {
    (if info.email != "" then info.email else "") + ContactGap
    + (if info.phone != "" then "| " + info.phone else "") + ContactGap
    + (if info.location != "" then "| " + info.location else "")
  }

  function SummaryHtml(info: PersonalInfo): (r: string)
    ensures r == "" <==> info.summary == ""
  {
    if info.summary != "" then SummaryOpen + info.summary + SummaryClose else ""
  }

  function ExperienceSectionHtml(xs: seq<Experience>): (r: string)
    ensures r == "" <==> |xs| == 0
    ensures |xs| > 0 ==> SectionOpen + "Work Experience" <= r
  {
    if |xs| > 0 then SectionOpen + "Work Experience" + SectionHeadClose + JobsHtml(xs) + SectionClose else ""
  }

  /** `experience.map((exp) => ...).join("")`. */
  function JobsHtml(xs: seq<Experience>): string {
    if |xs| == 0 then "" else JobHtml(xs[0]) + JobsHtml(xs[1..])
  }

  function JobHtml(x: Experience): string {
    EntryOpen + x.position + TitleToSubtitle + x.company + SubtitleToDate
    + DateRange(x.startDate, x.endDate) + DateToDescription
    + (if x.description != "" then DescriptionOpen + x.description + DescriptionClose else "")
    + DescriptionToClose
  }

  function EducationSectionHtml(es: seq<Education>): (r: string)
    ensures r == "" <==> |es| == 0
    ensures |es| > 0 ==> SectionOpen + "Education" <= r
  {
    if |es| > 0 then SectionOpen + "Education" + SectionHeadClose + SchoolsHtml(es) + SectionClose else ""
  }

  /** `education.map((edu) => ...).join("")`. */
  function SchoolsHtml(es: seq<Education>): string {
    if |es| == 0 then "" else SchoolHtml(es[0]) + SchoolsHtml(es[1..])
  }

  function SchoolHtml(e: Education): string {
    EntryOpen + e.degree + " in " + e.field + TitleToSubtitle + e.school + SubtitleToDate
    + e.graduationDate + DateToClose
  }

  /** The skills section: present whenever the list is non-empty, with a tag
      for every skill, blank ones included. */
  function SkillsSectionHtml(skills: seq<string>): (r: string)
    ensures r == "" <==> |skills| == 0
    ensures |skills| > 0 ==> SectionOpen + "Skills" <= r
  {
    if |skills| > 0 then SectionOpen + "Skills" + SectionHeadClose + SkillsBlock(skills) + SectionClose else ""
  }

  function SkillsBlock(skills: seq<string>): string {
    SkillsOpen + TagsHtml(skills) + SkillsClose
  }

  /** `skills.map((skill) => `<span class="skill-tag">${skill}</span>`).join("")`. */
  function TagsHtml(skills: seq<string>): (r: string)
    ensures |r| == |skills| * (|TagOpen| + |TagClose|) + Seqs.TotalLength(skills)
  {
    if |skills| == 0 then "" else TagHtml(skills[0]) + TagsHtml(skills[1..])
  }

  function TagHtml(skill: string): string {
    TagOpen + skill + TagClose
  }

  // ------------------------------------------ the document as a display tree

  /** What the exported document shows, in the vocabulary of the preview
      templates. The contact holds the three slots of the contact line, an
      empty string for a slot that shows nothing. */
  function ExportView(content: ResumeData): (p: Page)
    ensures p.heading == NameOrPlaceholder(content.personalInfo.fullName)
    ensures p.contact == [
      if content.personalInfo.email != "" then content.personalInfo.email else "",
      if content.personalInfo.phone != "" then "| " + content.personalInfo.phone else "",
      if content.personalInfo.location != "" then "| " + content.personalInfo.location else ""]
    ensures p.summary.Some? <==> content.personalInfo.summary != ""
    ensures p.summary.Some? ==> p.summary.value == content.personalInfo.summary
    ensures ShowsJobs(p.experience, "Work Experience", content.experience, false)
    ensures ShowsSchools(p.education, content.education)
    ensures p.skills.Some? <==> |content.skills| > 0
    ensures p.skills.Some? ==> p.skills.value == Section("Skills", Chips(content.skills))
  {
    var info := content.personalInfo;
    Page(
      NameOrPlaceholder(info.fullName),
      ContactSlots(info),
      SummaryBlock(info),
      JobsSection("Work Experience", content.experience, false),
      SchoolsSection(content.education),
      if |content.skills| == 0 then None else Some(Section("Skills", Chips(content.skills))))
  }

  function ContactSlots(info: PersonalInfo): seq<string> {
    [ if info.email != "" then info.email else "",
      if info.phone != "" then "| " + info.phone else "",
      if info.location != "" then "| " + info.location else ""]
  }

  /** Writes a page out in the export's markup. */
  function Serialize(title: string, p: Page): string {
    DocOpen + title + TitleClose + p.heading + ContactOpen
    + Seqs.Join(p.contact, ContactGap) + HeaderClose
    + (match p.summary case Some(s) => SummaryOpen + s + SummaryClose case None => "") + BlockGap
    + SectionMarkup(p.experience, true) + BlockGap
    + SectionMarkup(p.education, false) + BlockGap
    + SectionMarkup(p.skills, false)
    + DocClose
  }

  function SectionMarkup(s: Option<Section>, withDescription: bool): string {
    match s
    case None => ""
    case Some(Section(title, body)) => SectionOpen + title + SectionHeadClose + BodyMarkup(body, withDescription) + SectionClose
  }

  function BodyMarkup(b: Body, withDescription: bool): string {
    match b
    case Entries(es) => EntriesMarkup(es, withDescription)
    case Chips(cs) => SkillsOpen + TagsHtml(cs) + SkillsClose
    case Line(text) => text
  }

  function EntriesMarkup(es: seq<Entry>, withDescription: bool): string {
    if |es| == 0 then "" else EntryMarkup(es[0], withDescription) + EntriesMarkup(es[1..], withDescription)
  }

  /** An entry block; experience blocks carry a description slot, education blocks do not. */
  function EntryMarkup(e: Entry, withDescription: bool): string {
    if withDescription then
      EntryOpen + e.title + TitleToSubtitle + e.subtitle + SubtitleToDate + e.date + DateToDescription
      + (match e.description case Some(d) => DescriptionOpen + d + DescriptionClose case None => "")
      + DescriptionToClose
    else
      EntryOpen + e.title + TitleToSubtitle + e.subtitle + SubtitleToDate + e.date + DateToClose
  }

  // -------------------------------------------------------------- the route

  /** A successful export: the document, its content type and the suggested file name. */
  datatype Download = Download(body: string, contentType: string, fileName: string)

  /** The `Content-Disposition` header of a download. */
  function Disposition(d: Download): string {
    "attachment; filename=\"" + d.fileName + "\""
  }

  /** The POST handler: a missing resume id is rejected before anything else,
      then a missing user, then a resume that does not exist, belongs to
      someone else or could not be read (`readFails`). */
  function ExportPost(db: Store.Resumes, resumeId: Field, user: Option<string>, readFails: bool): (r: Reply<Download>)
    ensures !Truthy(resumeId) ==> r == Fail(400, "Resume ID is required")
    ensures Truthy(resumeId) && user.None? ==> r == Fail(401, "Unauthorized")
    ensures Truthy(resumeId) && user.Some? && (readFails || !(resumeId.value in db && db[resumeId.value].userId == user.value)) ==>
      r == Fail(404, "Resume not found")
    ensures r.Ok? <==> Truthy(resumeId) && user.Some? && !readFails && resumeId.value in db && db[resumeId.value].userId == user.value
    ensures r.Ok? ==>
      var row := db[resumeId.value];
      r.value == Download(GenerateResumeHtml(row.content, row.templateId), "text/html", row.title + ".html")
  {
    if !Truthy(resumeId) then Fail(400, "Resume ID is required")
    else if user.None? then Fail(401, "Unauthorized")
    else match Store.OwnedResume(db, resumeId.value, user.value, readFails)
      case None => Fail(404, "Resume not found")
      case Some(row) => Ok(Download(GenerateResumeHtml(row.content, row.templateId), "text/html", row.title + ".html"))
  }

  // ----------------------------------------------------------------- lemmas

  /** The header `Disposition` computes, unfolded for a file name of the form
      `title + ".html"`, which is the name `ExportPost` gives every download:
      the document is offered as an attachment called `{title}.html`. */
  lemma ExportPostDisposition(d: Download, title: string)
    requires d.fileName == title + ".html"
    ensures Disposition(d) == "attachment; filename=\"" + title + ".html\""
  {
    Seqs.ConcatAssociative("attachment; filename=\"" + title, ".html", "\"");
  }

  /** The document does not depend on the template it is asked for. */
  lemma ExportIgnoresTemplate(content: ResumeData, t1: string, t2: string)
    ensures GenerateResumeHtml(content, t1) == GenerateResumeHtml(content, t2)
  {
  }

  /** The entry blocks of a concatenation are the blocks of each part, in order. */
  lemma {:induction false} JobsHtmlAppend(a: seq<Experience>, b: seq<Experience>)
    ensures JobsHtml(a + b) == JobsHtml(a) + JobsHtml(b)
  {
    if |a| == 0 {
      assert a + b == b;
    } else {
      var h := JobHtml(a[0]);
      assert (a + b)[0] == a[0] && (a + b)[1..] == a[1..] + b;
      assert JobsHtml(a + b) == h + JobsHtml(a[1..] + b);
      JobsHtmlAppend(a[1..], b);
      Seqs.ConcatAssociative(h, JobsHtml(a[1..]), JobsHtml(b));
    }
  }

  lemma {:induction false} SchoolsHtmlAppend(a: seq<Education>, b: seq<Education>)
    ensures SchoolsHtml(a + b) == SchoolsHtml(a) + SchoolsHtml(b)
  {
    if |a| == 0 {
      assert a + b == b;
    } else {
      var h := SchoolHtml(a[0]);
      assert (a + b)[0] == a[0] && (a + b)[1..] == a[1..] + b;
      assert SchoolsHtml(a + b) == h + SchoolsHtml(a[1..] + b);
      SchoolsHtmlAppend(a[1..], b);
      Seqs.ConcatAssociative(h, SchoolsHtml(a[1..]), SchoolsHtml(b));
    }
  }

  lemma {:induction false} TagsHtmlAppend(a: seq<string>, b: seq<string>)
    ensures TagsHtml(a + b) == TagsHtml(a) + TagsHtml(b)
  {
    if |a| == 0 {
      assert a + b == b;
    } else {
      var h := TagHtml(a[0]);
      assert (a + b)[0] == a[0] && (a + b)[1..] == a[1..] + b;
      assert TagsHtml(a + b) == h + TagsHtml(a[1..] + b);
      TagsHtmlAppend(a[1..], b);
      Seqs.ConcatAssociative(h, TagsHtml(a[1..]), TagsHtml(b));
    }
  }

  /** The blocks `.map(...)` produces, one per entry, before they are joined. */
  function JobBlocks(xs: seq<Experience>): seq<string> {
    seq(|xs|, i requires 0 <= i < |xs| => JobHtml(xs[i]))
  }

  function SchoolBlocks(es: seq<Education>): seq<string> {
    seq(|es|, i requires 0 <= i < |es| => SchoolHtml(es[i]))
  }

  function TagBlocks(skills: seq<string>): seq<string> {
    seq(|skills|, i requires 0 <= i < |skills| => TagHtml(skills[i]))
  }

  /** `experience.map(...).join("")`: the entry markup is the mapped blocks joined with nothing between them. */
  lemma JobsHtmlIsJoin(xs: seq<Experience>)
    ensures JobsHtml(xs) == Seqs.Join(JobBlocks(xs), "")
  {
    JobsHtmlIsConcat(xs);
    Seqs.JoinNothingIsConcat(JobBlocks(xs));
  }

  lemma {:induction false} JobsHtmlIsConcat(xs: seq<Experience>)
    ensures JobsHtml(xs) == Seqs.Concat(JobBlocks(xs))
  {
    if |xs| > 0 {
      assert JobBlocks(xs)[1..] == JobBlocks(xs[1..]);
      JobsHtmlIsConcat(xs[1..]);
    }
  }

  /** `education.map(...).join("")`. */
  lemma SchoolsHtmlIsJoin(es: seq<Education>)
    ensures SchoolsHtml(es) == Seqs.Join(SchoolBlocks(es), "")
  {
    SchoolsHtmlIsConcat(es);
    Seqs.JoinNothingIsConcat(SchoolBlocks(es));
  }

  lemma {:induction false} SchoolsHtmlIsConcat(es: seq<Education>)
    ensures SchoolsHtml(es) == Seqs.Concat(SchoolBlocks(es))
  {
    if |es| > 0 {
      assert SchoolBlocks(es)[1..] == SchoolBlocks(es[1..]);
      SchoolsHtmlIsConcat(es[1..]);
    }
  }

  /** `skills.map(...).join("")`. */
  lemma TagsHtmlIsJoin(skills: seq<string>)
    ensures TagsHtml(skills) == Seqs.Join(TagBlocks(skills), "")
  {
    TagsHtmlIsConcat(skills);
    Seqs.JoinNothingIsConcat(TagBlocks(skills));
  }

  lemma {:induction false} TagsHtmlIsConcat(skills: seq<string>)
    ensures TagsHtml(skills) == Seqs.Concat(TagBlocks(skills))
  {
    if |skills| > 0 {
      assert TagBlocks(skills)[1..] == TagBlocks(skills[1..]);
      TagsHtmlIsConcat(skills[1..]);
    }
  }

  /** Unlike the preview templates, the export keeps blank skills: each one
      becomes an empty skill tag in its place. */
  lemma BlankSkillMakesEmptyTag(a: seq<string>, b: seq<string>)
    ensures TagsHtml(a + [""] + b) == TagsHtml(a) + TagOpen + TagClose + TagsHtml(b)
  {
    TagsHtmlAppend(a + [""], b);
    TagsHtmlAppend(a, [""]);
    assert [""][1..] == [];
    assert TagHtml("") == TagOpen + TagClose;
  }

  /** With no email, the contact line opens with the bar meant to separate
      the phone number from the email. */
  lemma ContactLeadingBar(info: PersonalInfo)
    requires info.email == "" && info.phone != ""
    ensures ContactGap + "| " + info.phone <= ContactHtml(info)
  {
    var tail := ContactGap + (if info.location != "" then "| " + info.location else "");
    assert ContactHtml(info) == ContactGap + "| " + info.phone + tail;
  }

  // ------------------------------ the document serializes its display tree

  lemma ContactAgrees(info: PersonalInfo)
    ensures ContactHtml(info) == Seqs.Join(ContactSlots(info), ContactGap)
  {
    var a := if info.email != "" then info.email else "";
    var b := if info.phone != "" then "| " + info.phone else "";
    var c := if info.location != "" then "| " + info.location else "";
    assert [a, b, c][1..] == [b, c];
    assert [b, c][1..] == [c];
    assert Seqs.Join([c], ContactGap) == c;
    assert Seqs.Join([b, c], ContactGap) == b + ContactGap + c;
    assert ContactSlots(info) == [a, b, c];
    assert Seqs.Join([a, b, c], ContactGap) == a + ContactGap + (b + ContactGap + c);
    Seqs.ConcatAssociative(a + ContactGap, b + ContactGap, c);
    Seqs.ConcatAssociative(a + ContactGap, b, ContactGap);
  }

  lemma {:induction false} JobsAgree(xs: seq<Experience>)
    ensures JobsHtml(xs) == EntriesMarkup(JobEntries(xs, false), true)
  {
    if |xs| > 0 {
      JobsAgree(xs[1..]);
      assert JobEntries(xs, false)[1..] == JobEntries(xs[1..], false);
    }
  }

  lemma {:induction false} SchoolsAgree(es: seq<Education>)
    ensures SchoolsHtml(es) == EntriesMarkup(SchoolEntries(es), false)
  {
    if |es| > 0 {
      SchoolsAgree(es[1..]);
      assert SchoolEntries(es)[1..] == SchoolEntries(es[1..]);
    }
  }

  /** `generateResumeHTML` writes out exactly the display tree `ExportView`:
      every structural fact about the view is a fact about the document. */
  lemma ExportHtmlSerializesView(content: ResumeData, template: string)
    ensures GenerateResumeHtml(content, template) == Serialize(content.personalInfo.fullName, ExportView(content))
  {
    var info := content.personalInfo;
    var p := ExportView(content);
    ContactAgrees(info);
    assert ContactHtml(info) == Seqs.Join(p.contact, ContactGap);
    JobsAgree(content.experience);
    SchoolsAgree(content.education);
    assert ExperienceSectionHtml(content.experience) == SectionMarkup(p.experience, true);
    assert EducationSectionHtml(content.education) == SectionMarkup(p.education, false);
    assert SkillsSectionHtml(content.skills) == SectionMarkup(p.skills, false);
    assert SummaryHtml(info) == (match p.summary case Some(s) => SummaryOpen + s + SummaryClose case None => "");
  }

  /** The export shows what the modern template shows, except the contact
      line's "| " markers and the skills: the export lists every skill,
      the template only the non-empty ones. */
  lemma ExportMatchesModern(content: ResumeData)
    ensures ExportView(content).heading == Modern.ModernTemplate(content).heading
    ensures ExportView(content).summary == Modern.ModernTemplate(content).summary
    ensures ExportView(content).experience == Modern.ModernTemplate(content).experience
    ensures ExportView(content).education == Modern.ModernTemplate(content).education
    ensures Modern.ModernTemplate(content).skills.Some? ==>
      ExportView(content).skills == Some(Section("Skills", Chips(content.skills))) &&
      Modern.ModernTemplate(content).skills == Some(Section("Skills", Chips(NonBlank(content.skills))))
  {
  }
}

=== FILE: generate_bullets.dfy ===
/** The bullet-generation route: validation of `jobTitle` and `company`, and
    the prompt built from them and the optional description. */
module GenerateBullets {
  import opened Wrappers
  import opened Http
  import Seqs

  const Intro := "Generate 3-4 professional resume bullet points for someone who worked"
  const Closing := "Format as a numbered list."
  /** The instructions after the context: they open with " Make" and end with `Closing`. */
  const Instructions := " Make" + " them specific, achievement-focused, and include metrics where possible. " + Closing

  /** `description ? `Context: ${description}` : ""`. */
  function ContextSegment(description: Field): (r: string)
    ensures r == "" <==> !Truthy(description)
  {
    if Truthy(description) then "Context: " + description.value else ""
  }

  /** The prompt for a request, or the 400 it is rejected with when the job
      title or the company is missing or empty. */
  function BulletsPrompt(jobTitle: Field, company: Field, description: Field): (r: Reply<string>)
    ensures !Truthy(jobTitle) || !Truthy(company) ==> r == Fail(400, "Job title and company are required")
    ensures r.Ok? <==> Truthy(jobTitle) && Truthy(company)
    ensures r.Ok? ==>
      r.value == Intro + " as a " + jobTitle.value + " at " + company.value + ". " + ContextSegment(description) + Instructions
  {
    if !Truthy(jobTitle) || !Truthy(company) then Fail(400, "Job title and company are required")
    else Ok(Intro + " as a " + jobTitle.value + " at " + company.value + ". " + ContextSegment(description) + Instructions)
  }

  /** The POST handler: a valid request is answered with the model's text, a
      model failure becomes a 500. */
  function GenerateBulletsText(jobTitle: Field, company: Field, description: Field, generate: TextModel): (r: Reply<string>)
    ensures BulletsPrompt(jobTitle, company, description).Fail? ==> r == BulletsPrompt(jobTitle, company, description)
    ensures BulletsPrompt(jobTitle, company, description).Ok? ==>
      var out := generate(BulletsPrompt(jobTitle, company, description).value);
      r == if out.Some? then Ok(out.value) else Fail(500, "Failed to generate bullets")
  {
    match BulletsPrompt(jobTitle, company, description)
    case Fail(status, message) => Fail(status, message)
    case Ok(prompt) =>
      match generate(prompt)
      case Some(out) => Ok(out)
      case None => Fail(500, "Failed to generate bullets")
  }

  // ----------------------------------------------------------------- lemmas

  /** The prompt opens with "... as a {jobTitle} at {company}. ", both embedded verbatim. */
  lemma PromptNamesTheJob(jobTitle: Field, company: Field, description: Field)
    requires BulletsPrompt(jobTitle, company, description).Ok?
    ensures Intro + " as a " + jobTitle.value + " at " + company.value + ". " <= BulletsPrompt(jobTitle, company, description).value
  {
    var head := Intro + " as a " + jobTitle.value + " at " + company.value + ". ";
    var rest := ContextSegment(description) + Instructions;
    assert BulletsPrompt(jobTitle, company, description).value == head + ContextSegment(description) + Instructions;
    Seqs.ConcatAssociative(head, ContextSegment(description), Instructions);
    assert (head + rest)[..|head|] == head;
  }

  /** The prompt always ends with the numbered-list instruction. */
  lemma PromptEndsWithFormat(jobTitle: Field, company: Field, description: Field)
    requires BulletsPrompt(jobTitle, company, description).Ok?
    ensures var p := BulletsPrompt(jobTitle, company, description).value;
      |Closing| <= |p| && p[|p| - |Closing|..] == Closing
  {
    var p := BulletsPrompt(jobTitle, company, description).value;
    var front := Intro + " as a " + jobTitle.value + " at " + company.value + ". " + ContextSegment(description)
      + " Make" + " them specific, achievement-focused, and include metrics where possible. ";
    assert p == front + Closing;
  }

  /** Without a description the sentence break is followed by a second space. */
  lemma NoDescriptionLeavesDoubleSpace(jobTitle: Field, company: Field, description: Field)
    requires BulletsPrompt(jobTitle, company, description).Ok?
    requires !Truthy(description)
    ensures Intro + " as a " + jobTitle.value + " at " + company.value + ".  Make" <= BulletsPrompt(jobTitle, company, description).value
  {
    var head := Intro + " as a " + jobTitle.value + " at " + company.value;
    var rest := " them specific, achievement-focused, and include metrics where possible. " + Closing;
    assert BulletsPrompt(jobTitle, company, description).value == head + ".  Make" + rest;
  }

  /** For a fixed job the prompt determines the description: the context
      segment is there iff the description is truthy, and then holds it verbatim. */
  lemma PromptDeterminesDescription(jobTitle: Field, company: Field, d1: Field, d2: Field)
    requires BulletsPrompt(jobTitle, company, d1).Ok?
    requires BulletsPrompt(jobTitle, company, d1) == BulletsPrompt(jobTitle, company, d2)
    ensures Truthy(d1) <==> Truthy(d2)
    ensures Truthy(d1) ==> d1.value == d2.value
  {
    var head := Intro + " as a " + jobTitle.value + " at " + company.value + ". ";
    var c1, c2 := ContextSegment(d1), ContextSegment(d2);
    var p := BulletsPrompt(jobTitle, company, d1).value;
    assert p == head + c1 + Instructions;
    assert p == head + c2 + Instructions;
    assert c1 == p[|head|..|p| - |Instructions|];
    assert c2 == p[|head|..|p| - |Instructions|];
    if Truthy(d1) && Truthy(d2) {
      assert d1.value == c1[9..];
      assert d2.value == c2[9..];
    }
  }
}

=== FILE: hex.dfy ===
/** Bytes and their lowercase hexadecimal text, as Node's `toString("hex")`. */
module Hex {
  import opened Wrappers

  newtype byte = x: int | 0 <= x < 256

  predicate IsHexChar(c: char) {
    ('0' <= c <= '9') || ('a' <= c <= 'f')
  }

  /** The lowercase digit for 0..15. */
  function Digit(n: int): (c: char)
    requires 0 <= n < 16
    ensures IsHexChar(c)
  {
    if n < 10 then ('0' as int + n) as char else ('a' as int + n - 10) as char
  }

  /** The value of a hex digit, if `c` is one. */
  function DigitValue(c: char): (r: Option<int>)
    ensures r.Some? <==> IsHexChar(c)
    ensures r.Some? ==> 0 <= r.value < 16 && Digit(r.value) == c
  {
    if '0' <= c <= '9' then Some(c as int - '0' as int)
    else if 'a' <= c <= 'f' then Some(c as int - 'a' as int + 10)
    else None
  }

  /** Two digits per byte, high nibble first. */
  function Encode(bs: seq<byte>): (s: string)
    ensures |s| == 2 * |bs|
    ensures forall i :: 0 <= i < |s| ==> IsHexChar(s[i])
  {
    if |bs| == 0 then ""
    else [Digit(bs[0] as int / 16), Digit(bs[0] as int % 16)] + Encode(bs[1..])
  }

  /** The bytes a hex text spells, or `None` for an odd length or a non-digit. */
  function Decode(s: string): Option<seq<byte>> {
    if |s| == 0 then Some([])
    else if |s| == 1 then None
    else match (DigitValue(s[0]), DigitValue(s[1]), Decode(s[2..]))
      case (Some(hi), Some(lo), Some(rest)) => Some([(hi * 16 + lo) as byte] + rest)
      case _ => None
  }

  /** Decoding undoes encoding, so distinct byte strings give distinct tokens. */
  lemma {:induction false} DecodeEncode(bs: seq<byte>)
    ensures Decode(Encode(bs)) == Some(bs)
  {
    if |bs| > 0 {
      var b := bs[0] as int;
      var s := Encode(bs);
      assert s[2..] == Encode(bs[1..]);
      DecodeEncode(bs[1..]);
      assert DigitValue(Digit(b / 16)) == Some(b / 16);
      assert DigitValue(Digit(b % 16)) == Some(b % 16);
      assert [bs[0]] + bs[1..] == bs;
    }
  }

  /** A share token: 32 lowercase hex digits. */
  predicate IsToken(s: string) {
    |s| == 32 && forall i :: 0 <= i < |s| ==> IsHexChar(s[i])
  }

  /** `randomBytes(16).toString("hex")` is a token. */
  lemma SixteenBytesMakeAToken(bs: seq<byte>)
    requires |bs| == 16
    ensures IsToken(Encode(bs))
  {
  }
}

=== FILE: http.dfy ===
/** What the route handlers share: the shape of a JSON reply and JavaScript
    truthiness of request-body fields. */
module Http {
  import opened Wrappers

  /** A handler's reply: a success payload, or an error status with the
      message of its `{ error }` body. */
  datatype Reply<+T> = Ok(value: T) | Fail(status: int, message: string)

  /** A field of a parsed JSON request body: absent (or null) is `None`. */
  type Field = Option<string>

  /** `if (!field)` fails for an absent field and for the empty string. */
  predicate Truthy(f: Field) {
    f.Some? && f.value != ""
  }

  /** The hosted text-generation call, left uninterpreted: `None` stands for
      the call throwing. */
  type TextModel = string -> Option<string>
}

=== FILE: minimal.dfy ===
/** The "minimal" preview template. */
module Minimal {
  import opened Resume
  import opened Display

  /** Heading with placeholder, contact items, summary, an "Experience"
      section that shows only the start date of each entry, "Education", and
      one line of the non-empty skills joined by ", ". */
  function MinimalTemplate(d: ResumeData): (p: Page)
    ensures ShowsHeader(p, d.personalInfo)
    ensures ShowsJobs(p.experience, "Experience", d.experience, true)
    ensures ShowsSchools(p.education, d.education)
    ensures ShowsSkillLine(p.skills, d.skills, ", ")
  {
    Layout(d, "Experience", true, Joined(", "))
  }
}

=== FILE: modern.dfy ===
/** The "modern" preview template. */
module Modern {
  import opened Resume
  import opened Display

  /** Heading with placeholder, contact items, summary, a "Work Experience"
      section with start-to-end dates, "Education", and skills as chips. */
  function ModernTemplate(d: ResumeData): (p: Page)
    ensures ShowsHeader(p, d.personalInfo)
    ensures ShowsJobs(p.experience, "Work Experience", d.experience, false)
    ensures ShowsSchools(p.education, d.education)
    ensures ShowsSkillChips(p.skills, d.skills)
  {
    Layout(d, "Work Experience", false, AsChips)
  }
}

=== FILE: preview.dfy ===
/** The preview component: a closed dispatch from a template name to one of
    the four renderers, with "modern" as the fallback. */
module Preview {
  import opened Wrappers
  import opened Resume
  import opened Display
  import Seqs
  import Modern
  import Classic
  import Minimal
  import Creative

  datatype TemplateId = ModernId | ClassicId | MinimalId | CreativeId

  function TemplateName(t: TemplateId): string {
    match t
    case ModernId => "modern"
    case ClassicId => "classic"
    case MinimalId => "minimal"
    case CreativeId => "creative"
  }

  /** The `switch`: three names select their template, every other string
      (including "modern") selects modern. */
  function TemplateNamed(name: string): (t: TemplateId)
    ensures name in {"classic", "minimal", "creative"} ==> TemplateName(t) == name
    ensures t != ModernId ==> TemplateName(t) == name
    ensures name !in {"classic", "minimal", "creative"} ==> t == ModernId
  {
    match name
    case "classic" => ClassicId
    case "minimal" => MinimalId
    case "creative" => CreativeId
    case _ => ModernId
  }

  /** The page each template renders, told apart by the reference predicates:
      the experience title, whether end dates show, and how skills show. */
  function Render(d: ResumeData, t: TemplateId): (p: Page)
    ensures ShowsHeader(p, d.personalInfo) && ShowsSchools(p.education, d.education)
    ensures t == ModernId ==> ShowsJobs(p.experience, "Work Experience", d.experience, false) && ShowsSkillChips(p.skills, d.skills)
    ensures t == ClassicId ==>
      ShowsJobs(p.experience, "Professional Experience", d.experience, false) && ShowsSkillLine(p.skills, d.skills, " \U{2022} ")
    ensures t == MinimalId ==> ShowsJobs(p.experience, "Experience", d.experience, true) && ShowsSkillLine(p.skills, d.skills, ", ")
    ensures t == CreativeId ==> ShowsJobs(p.experience, "Experience", d.experience, false) && ShowsSkillChips(p.skills, d.skills)
  {
    match t
    case ModernId => Modern.ModernTemplate(d)
    case ClassicId => Classic.ClassicTemplate(d)
    case MinimalId => Minimal.MinimalTemplate(d)
    case CreativeId => Creative.CreativeTemplate(d)
  }

  /** `ResumePreview({ data, template = "modern" })`: an omitted template
      defaults to "modern". */
  function ResumePreview(d: ResumeData, template: Option<string>): (p: Page)
    ensures template == Some("classic") ==> p == Classic.ClassicTemplate(d)
    ensures template == Some("minimal") ==> p == Minimal.MinimalTemplate(d)
    ensures template == Some("creative") ==> p == Creative.CreativeTemplate(d)
    ensures template.None? || template.value !in {"classic", "minimal", "creative"} ==>
      p == Modern.ModernTemplate(d)
  {
    Render(d, TemplateNamed(template.GetOr("modern")))
  }

  // ----------------------------------------------------------------- lemmas

  /** Every template's name selects that template again. */
  lemma TemplateNameRoundTrip(t: TemplateId)
    ensures TemplateNamed(TemplateName(t)) == t
  {
  }

  /** An unknown name such as "gothic" renders exactly as "modern" and as an
      omitted template. */
  lemma UnknownTemplateRendersAsModern(d: ResumeData)
    ensures ResumePreview(d, Some("gothic")) == ResumePreview(d, Some("modern"))
    ensures ResumePreview(d, Some("gothic")) == ResumePreview(d, None)
  {
  }

  /** Every template starts from the same header rules, omits exactly the
      empty sections, and shows entries in sequence order. */
  lemma EveryTemplateShowsTheData(d: ResumeData, t: TemplateId)
    ensures ShowsHeader(Render(d, t), d.personalInfo)
    ensures ShowsSchools(Render(d, t).education, d.education)
    ensures Render(d, t).experience.Some? <==> |d.experience| > 0
    ensures Render(d, t).skills.Some? <==> |d.skills| > 0
    ensures Render(d, t).experience.Some? ==>
      |Render(d, t).experience.value.body.entries| == |d.experience|
  {
  }

  /** The skills a page shows: its chips, or its one line of text. */
  function ShownSkills(p: Page): seq<string> {
    match p.skills
    case None => []
    case Some(Section(_, Chips(cs))) => cs
    case Some(Section(_, Line(text))) => [text]
    case Some(Section(_, Entries(_))) => []
  }

  /** What each template shows for a non-empty skill list: the non-empty
      skills as chips, or joined into one line with the template's separator. */
  lemma ShownSkillsOf(d: ResumeData, t: TemplateId)
    requires |d.skills| > 0
    ensures t in {ModernId, CreativeId} ==> ShownSkills(Render(d, t)) == NonBlank(d.skills)
    ensures t == ClassicId ==> ShownSkills(Render(d, t)) == [Seqs.Join(NonBlank(d.skills), " \U{2022} ")]
    ensures t == MinimalId ==> ShownSkills(Render(d, t)) == [Seqs.Join(NonBlank(d.skills), ", ")]
  {
  }

  /** The skill list ["Go", "", "Rust", ""] shows "Go" and "Rust" in that
      order in every template. */
  lemma BlankSkillsAreFiltered(d: ResumeData)
    requires d.skills == ["Go", "", "Rust", ""]
    ensures ShownSkills(Render(d, ModernId)) == ["Go", "Rust"]
    ensures ShownSkills(Render(d, CreativeId)) == ["Go", "Rust"]
    ensures ShownSkills(Render(d, ClassicId)) == ["Go \U{2022} Rust"]
    ensures ShownSkills(Render(d, MinimalId)) == ["Go, Rust"]
  {
    NonBlankExample();
    ShownGoAndRust(d);
  }

  lemma ShownGoAndRust(d: ResumeData)
    requires |d.skills| > 0 && NonBlank(d.skills) == ["Go", "Rust"]
    ensures ShownSkills(Render(d, ModernId)) == ["Go", "Rust"]
    ensures ShownSkills(Render(d, CreativeId)) == ["Go", "Rust"]
    ensures ShownSkills(Render(d, ClassicId)) == ["Go \U{2022} Rust"]
    ensures ShownSkills(Render(d, MinimalId)) == ["Go, Rust"]
  {
    ShownSkillsOf(d, ModernId);
    ShownSkillsOf(d, CreativeId);
    ShownSkillsOf(d, ClassicId);
    ShownSkillsOf(d, MinimalId);
    JoinTwo("Go", "Rust", " \U{2022} ");
    JoinTwo("Go", "Rust", ", ");
    assert "Go" + " \U{2022} " + "Rust" == "Go \U{2022} Rust";
    assert "Go" + ", " + "Rust" == "Go, Rust";
  }

  lemma JoinTwo(a: string, b: string, sep: string)
    ensures Seqs.Join([a, b], sep) == a + sep + b
  {
    assert [a, b][1..] == [b];
  }

  /** A non-empty list of blank skills still produces the "Skills" header in
      every template, above no skill at all. */
  lemma BlankSkillsKeepTheHeader(d: ResumeData, t: TemplateId)
    requires |d.skills| > 0
    requires forall i :: 0 <= i < |d.skills| ==> d.skills[i] == ""
    ensures Render(d, t).skills.Some?
    ensures Render(d, t).skills.value.title == "Skills"
    ensures ShownSkills(Render(d, t)) == [] || ShownSkills(Render(d, t)) == [""]
  {
    NonBlankOfBlanks(d.skills);
  }

  /** A resume holding only the name "Jane Doe" renders that name and no
      section header, in every template. */
  lemma OnlyANameRendersNoSections(t: TemplateId)
    ensures Render(ResumeData(PersonalInfo("Jane Doe", "", "", "", ""), [], [], []), t).heading == "Jane Doe"
    ensures Headers(Render(ResumeData(PersonalInfo("Jane Doe", "", "", "", ""), [], [], []), t)) == []
  {
  }

  /** A fresh editor session previews as the placeholder name alone. */
  lemma DefaultDataRendersPlaceholder(t: TemplateId)
    ensures Render(DefaultData, t).heading == "Your Name"
    ensures Render(DefaultData, t).contact == []
    ensures Render(DefaultData, t).summary.None?
    ensures Headers(Render(DefaultData, t)) == []
  {
  }
}

=== FILE: resume.dfy ===
/** The resume content aggregate edited in the browser and the pure
    "old value -> new value" edit operations of the editor component.
    Every operation returns a new value; the React state setter is left out. */
module Resume {
  import opened Wrappers
  import Seqs

  datatype PersonalInfo = PersonalInfo(
    fullName: string,
    email: string,
    phone: string,
    location: string,
    summary: string)

  datatype Experience = Experience(
    id: string,
    company: string,
    position: string,
    startDate: string,
    endDate: string,
    description: string)

  datatype Education = Education(
    id: string,
    school: string,
    degree: string,
    field: string,
    graduationDate: string)

  datatype ResumeData = ResumeData(
    personalInfo: PersonalInfo,
    experience: seq<Experience>,
    education: seq<Education>,
    skills: seq<string>)

  /** The content a new editor session starts from. */
  const DefaultData := ResumeData(PersonalInfo("", "", "", "", ""), [], [], [])

  // ---------------------------------------------------------------- field names

  /** The keys of the personal-info record (the editor's `field` is typed as one of them). */
  datatype PersonalField = FullName | Email | Phone | Location | Summary

  function PersonalValue(p: PersonalInfo, f: PersonalField): string {
    match f
    case FullName => p.fullName
    case Email => p.email
    case Phone => p.phone
    case Location => p.location
    case Summary => p.summary
  }

  /** The keys of an experience entry. */
  datatype ExperienceField = ExperienceId | Company | Position | StartDate | EndDate | Description

  function ExperienceFieldNamed(name: string): Option<ExperienceField> {
    match name
    case "id" => Some(ExperienceId)
    case "company" => Some(Company)
    case "position" => Some(Position)
    case "startDate" => Some(StartDate)
    case "endDate" => Some(EndDate)
    case "description" => Some(Description)
    case _ => None
  }

  function ExperienceValue(e: Experience, f: ExperienceField): string {
    match f
    case ExperienceId => e.id
    case Company => e.company
    case Position => e.position
    case StartDate => e.startDate
    case EndDate => e.endDate
    case Description => e.description
  }

  /** The keys of an education entry. */
  datatype EducationField = EducationId | School | Degree | FieldOfStudy | GraduationDate

  function EducationFieldNamed(name: string): Option<EducationField> {
    match name
    case "id" => Some(EducationId)
    case "school" => Some(School)
    case "degree" => Some(Degree)
    case "field" => Some(FieldOfStudy)
    case "graduationDate" => Some(GraduationDate)
    case _ => None
  }

  function EducationValue(e: Education, f: EducationField): string {
    match f
    case EducationId => e.id
    case School => e.school
    case Degree => e.degree
    case FieldOfStudy => e.field
    case GraduationDate => e.graduationDate
  }

  // ---------------------------------------------------------- record updates

  /** `{ ...p, [f]: v }` on the personal-info record. */
  function WithPersonal(p: PersonalInfo, f: PersonalField, v: string): (r: PersonalInfo)
    ensures PersonalValue(r, f) == v
    ensures forall g :: g != f ==> PersonalValue(r, g) == PersonalValue(p, g)
  {
    match f
    case FullName => p.(fullName := v)
    case Email => p.(email := v)
    case Phone => p.(phone := v)
    case Location => p.(location := v)
    case Summary => p.(summary := v)
  }

  /** `{ ...e, [name]: v }` on an experience entry. A name that is not a key of
      the entry only adds a property nothing reads, so the entry is unchanged. */
  function WithExperience(e: Experience, name: string, v: string): (r: Experience)
    ensures ExperienceFieldNamed(name).None? ==> r == e
    ensures ExperienceFieldNamed(name).Some? ==>
      ExperienceValue(r, ExperienceFieldNamed(name).value) == v &&
      forall g :: g != ExperienceFieldNamed(name).value ==> ExperienceValue(r, g) == ExperienceValue(e, g)
  {
    match ExperienceFieldNamed(name)
    case None => e
    case Some(ExperienceId) => e.(id := v)
    case Some(Company) => e.(company := v)
    case Some(Position) => e.(position := v)
    case Some(StartDate) => e.(startDate := v)
    case Some(EndDate) => e.(endDate := v)
    case Some(Description) => e.(description := v)
  }

  /** `{ ...e, [name]: v }` on an education entry. */
  function WithEducation(e: Education, name: string, v: string): (r: Education)
    ensures EducationFieldNamed(name).None? ==> r == e
    ensures EducationFieldNamed(name).Some? ==>
      EducationValue(r, EducationFieldNamed(name).value) == v &&
      forall g :: g != EducationFieldNamed(name).value ==> EducationValue(r, g) == EducationValue(e, g)
  {
    match EducationFieldNamed(name)
    case None => e
    case Some(EducationId) => e.(id := v)
    case Some(School) => e.(school := v)
    case Some(Degree) => e.(degree := v)
    case Some(FieldOfStudy) => e.(field := v)
    case Some(GraduationDate) => e.(graduationDate := v)
  }

  // --------------------------------------------------------- edit operations

  /** Sets one personal-info field; everything else is left as it was. */
  function UpdatePersonalInfo(d: ResumeData, f: PersonalField, v: string): (r: ResumeData)
    ensures PersonalValue(r.personalInfo, f) == v
    ensures forall g :: g != f ==> PersonalValue(r.personalInfo, g) == PersonalValue(d.personalInfo, g)
    ensures r.experience == d.experience && r.education == d.education && r.skills == d.skills
  {
    d.(personalInfo := WithPersonal(d.personalInfo, f, v))
  }

  /** Appends a blank experience entry. Its id comes from the clock in the
      source, so it is a parameter here and nothing makes it unique. */
  function AddExperience(d: ResumeData, id: string): (r: ResumeData)
    ensures |r.experience| == |d.experience| + 1
    ensures r.experience[..|d.experience|] == d.experience
    ensures r.experience[|d.experience|] == Experience(id, "", "", "", "", "")
    ensures r.personalInfo == d.personalInfo && r.education == d.education && r.skills == d.skills
  {
    d.(experience := d.experience + [Experience(id, "", "", "", "", "")])
  }

  /** Sets field `name` of every experience entry whose id is `id`. */
  function UpdateExperience(d: ResumeData, id: string, name: string, v: string): (r: ResumeData)
    ensures |r.experience| == |d.experience|
    ensures forall i :: 0 <= i < |d.experience| && d.experience[i].id != id ==>
      r.experience[i] == d.experience[i]
    ensures forall i :: 0 <= i < |d.experience| && d.experience[i].id == id ==>
      r.experience[i] == WithExperience(d.experience[i], name, v)
    ensures r.personalInfo == d.personalInfo && r.education == d.education && r.skills == d.skills
  {
    var xs := d.experience;
    d.(experience := seq(|xs|, i requires 0 <= i < |xs| =>
      if xs[i].id == id then WithExperience(xs[i], name, v) else xs[i]))
  }

  /** Drops every experience entry whose id is `id`, keeping the others in order. */
  function RemoveExperience(d: ResumeData, id: string): (r: ResumeData)
    ensures forall i :: 0 <= i < |r.experience| ==> r.experience[i].id != id
    ensures forall i :: 0 <= i < |r.experience| ==> r.experience[i] in d.experience
    ensures forall i :: 0 <= i < |d.experience| && d.experience[i].id != id ==>
      d.experience[i] in r.experience
    ensures (forall i :: 0 <= i < |d.experience| ==> d.experience[i].id != id) ==> r == d
    ensures r.personalInfo == d.personalInfo && r.education == d.education && r.skills == d.skills
  {
    var keep := (e: Experience) => e.id != id;
    d.(experience := Seqs.Filter(keep, d.experience))
  }

  /** Appends a blank education entry with the given id. */
  function AddEducation(d: ResumeData, id: string): (r: ResumeData)
    ensures |r.education| == |d.education| + 1
    ensures r.education[..|d.education|] == d.education
    ensures r.education[|d.education|] == Education(id, "", "", "", "")
    ensures r.personalInfo == d.personalInfo && r.experience == d.experience && r.skills == d.skills
  {
    d.(education := d.education + [Education(id, "", "", "", "")])
  }

  /** Sets field `name` of every education entry whose id is `id`. */
  function UpdateEducation(d: ResumeData, id: string, name: string, v: string): (r: ResumeData)
    ensures |r.education| == |d.education|
    ensures forall i :: 0 <= i < |d.education| && d.education[i].id != id ==>
      r.education[i] == d.education[i]
    ensures forall i :: 0 <= i < |d.education| && d.education[i].id == id ==>
      r.education[i] == WithEducation(d.education[i], name, v)
    ensures r.personalInfo == d.personalInfo && r.experience == d.experience && r.skills == d.skills
  {
    var xs := d.education;
    d.(education := seq(|xs|, i requires 0 <= i < |xs| =>
      if xs[i].id == id then WithEducation(xs[i], name, v) else xs[i]))
  }

  /** Drops every education entry whose id is `id`, keeping the others in order. */
  function RemoveEducation(d: ResumeData, id: string): (r: ResumeData)
    ensures forall i :: 0 <= i < |r.education| ==> r.education[i].id != id
    ensures forall i :: 0 <= i < |r.education| ==> r.education[i] in d.education
    ensures forall i :: 0 <= i < |d.education| && d.education[i].id != id ==>
      d.education[i] in r.education
    ensures (forall i :: 0 <= i < |d.education| ==> d.education[i].id != id) ==> r == d
    ensures r.personalInfo == d.personalInfo && r.experience == d.experience && r.skills == d.skills
  {
    var keep := (e: Education) => e.id != id;
    d.(education := Seqs.Filter(keep, d.education))
  }

  /** Appends an empty skill. */
  function AddSkill(d: ResumeData): (r: ResumeData)
    ensures |r.skills| == |d.skills| + 1 && r.skills[..|d.skills|] == d.skills
    ensures r.skills[|d.skills|] == ""
    ensures r.personalInfo == d.personalInfo && r.experience == d.experience && r.education == d.education
  {
    d.(skills := d.skills + [""])
  }

  /** `newSkills[index] = value` on a copy of the skills: an index in range
      replaces that skill, the index just past the end appends, and a negative
      index sets a non-element property of the array, which leaves the skills
      unchanged. An index further past the end would leave holes in the
      array, which a sequence cannot hold. */
  function UpdateSkill(d: ResumeData, index: int, v: string): (r: ResumeData)
    requires index <= |d.skills|
    ensures |r.skills| == if index == |d.skills| then |d.skills| + 1 else |d.skills|
    ensures forall j :: 0 <= j < |d.skills| && j != index ==> r.skills[j] == d.skills[j]
    ensures 0 <= index ==> r.skills[index] == v
    ensures index < 0 ==> r == d
    ensures r.personalInfo == d.personalInfo && r.experience == d.experience && r.education == d.education
  {
    if index < 0 then d
    else if index == |d.skills| then d.(skills := d.skills + [v])
    else d.(skills := d.skills[index := v])
  }

  /** Removes the skill at position `index`, shifting later ones down; any
      other index matches no position and changes nothing. */
  function RemoveSkill(d: ResumeData, index: int): (r: ResumeData)
    ensures 0 <= index < |d.skills| ==>
      |r.skills| == |d.skills| - 1 &&
      (forall j :: 0 <= j < index ==> r.skills[j] == d.skills[j]) &&
      (forall j :: index <= j < |r.skills| ==> r.skills[j] == d.skills[j + 1])
    ensures !(0 <= index < |d.skills|) ==> r == d
    ensures r.personalInfo == d.personalInfo && r.experience == d.experience && r.education == d.education
  {
    if 0 <= index < |d.skills| then d.(skills := d.skills[..index] + d.skills[index + 1..]) else d
  }

  // ------------------------------------------------------------------ lemmas

  /** The default content has every field empty. */
  lemma DefaultDataIsEmpty()
    ensures forall f :: PersonalValue(DefaultData.personalInfo, f) == ""
    ensures DefaultData.experience == [] && DefaultData.education == [] && DefaultData.skills == []
  {
  }

  /** Writing the same personal field twice keeps only the last value. */
  lemma UpdatePersonalInfoLastWriteWins(d: ResumeData, f: PersonalField, v: string, w: string)
    ensures UpdatePersonalInfo(UpdatePersonalInfo(d, f, v), f, w) == UpdatePersonalInfo(d, f, w)
  {
    var a := UpdatePersonalInfo(UpdatePersonalInfo(d, f, v), f, w);
    var b := UpdatePersonalInfo(d, f, w);
    PersonalInfoExtensional(a.personalInfo, b.personalInfo);
  }

  /** Writes to two different personal fields commute. */
  lemma UpdatePersonalInfoCommutes(d: ResumeData, f: PersonalField, v: string, g: PersonalField, w: string)
    requires f != g
    ensures UpdatePersonalInfo(UpdatePersonalInfo(d, f, v), g, w) == UpdatePersonalInfo(UpdatePersonalInfo(d, g, w), f, v)
  {
    var a := UpdatePersonalInfo(UpdatePersonalInfo(d, f, v), g, w);
    var b := UpdatePersonalInfo(UpdatePersonalInfo(d, g, w), f, v);
    PersonalInfoExtensional(a.personalInfo, b.personalInfo);
  }

  /** Two personal-info records that agree on every field are equal. */
  lemma PersonalInfoExtensional(p: PersonalInfo, q: PersonalInfo)
    requires forall f :: PersonalValue(p, f) == PersonalValue(q, f)
    ensures p == q
  {
    assert PersonalValue(p, FullName) == PersonalValue(q, FullName);
    assert PersonalValue(p, Email) == PersonalValue(q, Email);
    assert PersonalValue(p, Phone) == PersonalValue(q, Phone);
    assert PersonalValue(p, Location) == PersonalValue(q, Location);
    assert PersonalValue(p, Summary) == PersonalValue(q, Summary);
  }

  /** Removing an id that was just added with a fresh id undoes the addition. */
  lemma RemoveUndoesAddExperience(d: ResumeData, id: string)
    requires forall i :: 0 <= i < |d.experience| ==> d.experience[i].id != id
    ensures RemoveExperience(AddExperience(d, id), id) == d
  {
    var keep := (e: Experience) => e.id != id;
    var blank := Experience(id, "", "", "", "", "");
    Seqs.FilterAppend(keep, d.experience, [blank]);
    assert Seqs.Filter(keep, [blank]) == [];
  }

  lemma RemoveUndoesAddEducation(d: ResumeData, id: string)
    requires forall i :: 0 <= i < |d.education| ==> d.education[i].id != id
    ensures RemoveEducation(AddEducation(d, id), id) == d
  {
    var keep := (e: Education) => e.id != id;
    var blank := Education(id, "", "", "", "");
    Seqs.FilterAppend(keep, d.education, [blank]);
    assert Seqs.Filter(keep, [blank]) == [];
  }

  /** Removal keeps the surviving entries in their original relative order:
      removing from a concatenation removes from each part. */
  lemma RemoveExperienceKeepsOrder(d: ResumeData, a: seq<Experience>, b: seq<Experience>, id: string)
    requires d.experience == a + b
    ensures RemoveExperience(d, id).experience
         == RemoveExperience(d.(experience := a), id).experience + RemoveExperience(d.(experience := b), id).experience
  {
    Seqs.FilterAppend((e: Experience) => e.id != id, a, b);
  }

  lemma RemoveEducationKeepsOrder(d: ResumeData, a: seq<Education>, b: seq<Education>, id: string)
    requires d.education == a + b
    ensures RemoveEducation(d, id).education
         == RemoveEducation(d.(education := a), id).education + RemoveEducation(d.(education := b), id).education
  {
    Seqs.FilterAppend((e: Education) => e.id != id, a, b);
  }

  /** Repeating an experience update changes nothing more. */
  lemma UpdateExperienceIdempotent(d: ResumeData, id: string, name: string, v: string)
    ensures UpdateExperience(UpdateExperience(d, id, name, v), id, name, v) == UpdateExperience(d, id, name, v)
  {
    var once := UpdateExperience(d, id, name, v);
    var twice := UpdateExperience(once, id, name, v);
    forall i | 0 <= i < |d.experience|
      ensures twice.experience[i] == once.experience[i]
    {
      if d.experience[i].id == id && once.experience[i].id == id {
        WithExperienceIdempotent(d.experience[i], name, v);
      }
    }
  }

  lemma WithExperienceIdempotent(e: Experience, name: string, v: string)
    ensures WithExperience(WithExperience(e, name, v), name, v) == WithExperience(e, name, v)
  {
  }

  lemma UpdateEducationIdempotent(d: ResumeData, id: string, name: string, v: string)
    ensures UpdateEducation(UpdateEducation(d, id, name, v), id, name, v) == UpdateEducation(d, id, name, v)
  {
    var once := UpdateEducation(d, id, name, v);
    var twice := UpdateEducation(once, id, name, v);
    forall i | 0 <= i < |d.education|
      ensures twice.education[i] == once.education[i]
    {
      if d.education[i].id == id && once.education[i].id == id {
        WithEducationIdempotent(d.education[i], name, v);
      }
    }
  }

  lemma WithEducationIdempotent(e: Education, name: string, v: string)
    ensures WithEducation(WithEducation(e, name, v), name, v) == WithEducation(e, name, v)
  {
  }

  /** Removing the skill just added by `AddSkill` restores the skills. */
  lemma RemoveUndoesAddSkill(d: ResumeData)
    ensures RemoveSkill(AddSkill(d), |d.skills|) == d
  {
    assert (d.skills + [""])[..|d.skills|] == d.skills;
  }

  /** Writing back the value already at an index is a no-op. */
  lemma UpdateSkillWithSameValue(d: ResumeData, index: int)
    requires 0 <= index < |d.skills|
    ensures UpdateSkill(d, index, d.skills[index]) == d
  {
  }

  /** Writing just past the end is adding a skill and then filling it in. */
  lemma UpdateSkillPastTheEndAdds(d: ResumeData, v: string)
    ensures UpdateSkill(d, |d.skills|, v) == UpdateSkill(AddSkill(d), |d.skills|, v)
  {
    assert (d.skills + [""])[|d.skills| := v] == d.skills + [v];
  }
}

=== FILE: seqs.dfy ===
/** Sequence helpers shared by the editor, the renderers and the export generator:
    order-preserving filtering (`Array.prototype.filter`), joining strings with a
    separator (`Array.prototype.join`) and flattening (`map(...).join("")`). */
module Seqs {

  /** Regrouping a concatenation. The verifier's sequence axioms contain this
      fact, but it does not regroup on its own when the parts are long chains
      of string literals, as in the export markup and the prompts; the callers
      name the three parts to make it take the step. */
  lemma ConcatAssociative<T>(a: seq<T>, b: seq<T>, c: seq<T>)
    ensures a + (b + c) == a + b + c
  {
  }

  /** Every element of `xs` satisfies `p`. */
  predicate AllPass<T>(p: T -> bool, xs: seq<T>) {
    forall i :: 0 <= i < |xs| ==> p(xs[i])
  }

  /** The elements of `xs` that satisfy `p`, in their original order; a
      sequence whose elements all pass is returned unchanged. */
  function Filter<T>(p: T -> bool, xs: seq<T>): (r: seq<T>)
    ensures |r| <= |xs|
    ensures forall i :: 0 <= i < |r| ==> r[i] in xs && p(r[i])
    ensures forall i :: 0 <= i < |xs| && p(xs[i]) ==> xs[i] in r
    ensures AllPass(p, xs) ==> r == xs
  {
    if |xs| == 0 then []
    else if p(xs[0]) then [xs[0]] + Filter(p, xs[1..])
    else Filter(p, xs[1..])
  }

  /** Filtering a three-element sequence keeps each element on its own merit. */
  lemma FilterThree<T>(p: T -> bool, x: T, y: T, z: T)
    ensures Filter(p, [x, y, z]) == (if p(x) then [x] else []) + (if p(y) then [y] else []) + (if p(z) then [z] else [])
  {
    var a, b, c := (if p(x) then [x] else []), (if p(y) then [y] else []), (if p(z) then [z] else []);
    assert Filter(p, [z]) == c by { assert [z][1..] == []; }
    assert Filter(p, [y, z]) == b + c by { assert [y, z][1..] == [z]; }
    assert Filter(p, [x, y, z]) == a + (b + c) by { assert [x, y, z][1..] == [y, z]; }
    ConcatAssociative(a, b, c);
  }

  /** Filtering distributes over concatenation: the kept elements of `a` come
      first, then those of `b`, so the relative order of survivors is kept. */
  lemma {:induction false} FilterAppend<T>(p: T -> bool, a: seq<T>, b: seq<T>)
    ensures Filter(p, a + b) == Filter(p, a) + Filter(p, b)
  {
    if |a| == 0 {
      assert a + b == b;
    } else {
      assert (a + b)[1..] == a[1..] + b;
      FilterAppend(p, a[1..], b);
    }
  }

  /** A sequence none of whose elements pass filters to nothing. */
  lemma {:induction false} FilterDropsAll<T>(p: T -> bool, xs: seq<T>)
    requires forall i :: 0 <= i < |xs| ==> !p(xs[i])
    ensures Filter(p, xs) == []
  {
    if |xs| > 0 {
      FilterDropsAll(p, xs[1..]);
    }
  }

  /** Total number of characters in a sequence of strings. */
  function TotalLength(xs: seq<string>): nat {
    if |xs| == 0 then 0 else |xs[0]| + TotalLength(xs[1..])
  }

  /** The strings of `xs` with `sep` between neighbours, as JavaScript's `join`. */
  function Join(xs: seq<string>, sep: string): (r: string)
    ensures |xs| == 0 ==> r == ""
    ensures |xs| > 0 ==> |r| == TotalLength(xs) + (|xs| - 1) * |sep|
    ensures |xs| > 0 ==> r[..|xs[0]|] == xs[0]
  {
    if |xs| == 0 then ""
    else if |xs| == 1 then xs[0]
    else xs[0] + sep + Join(xs[1..], sep)
  }

  /** Joining two non-empty runs puts exactly one separator between them. */
  lemma {:induction false} JoinAppend(a: seq<string>, b: seq<string>, sep: string)
    requires |a| > 0 && |b| > 0
    ensures Join(a + b, sep) == Join(a, sep) + sep + Join(b, sep)
  {
    if |a| == 1 {
      assert (a + b)[1..] == b;
    } else {
      assert (a + b)[1..] == a[1..] + b;
      JoinAppend(a[1..], b, sep);
    }
  }

  /** With a non-empty separator the joined text is empty exactly when there
      is nothing to join or the only element is empty. */
  lemma JoinEmpty(xs: seq<string>, sep: string)
    requires |sep| > 0
    ensures Join(xs, sep) == "" <==> |xs| == 0 || (|xs| == 1 && xs[0] == "")
  {
  }

  /** The concatenation of all strings of `xs`, i.e. `join("")`. */
  function Concat(xs: seq<string>): (r: string)
    ensures |r| == TotalLength(xs)
  {
    if |xs| == 0 then "" else xs[0] + Concat(xs[1..])
  }

  /** `join("")` is the same as concatenation. */
  lemma {:induction false} JoinNothingIsConcat(xs: seq<string>)
    ensures Join(xs, "") == Concat(xs)
  {
    if |xs| > 1 {
      JoinNothingIsConcat(xs[1..]);
    }
  }
}

=== FILE: share.dfy ===
/** The share route: POST gets or creates the share token of a resume, DELETE
    removes every share of a resume. The database is two tables passed in and
    returned; `randomBytes(16)` is a parameter. */
module Share {
  import opened Wrappers
  import opened Http
  import opened Hex
  import Store
  import Seqs

  /** A row of the `shared_resumes` table. */
  datatype ShareRow = ShareRow(resumeId: string, token: string)

  datatype Tables = Tables(resumes: Store.Resumes, shares: seq<ShareRow>)

  /** A handler's reply together with the tables after the request. */
  datatype Step<+T> = Step(reply: Reply<T>, after: Tables)

  /** `.from("shared_resumes").select(...).eq("resume_id", id)`: the rows of one resume, in table order. */
  function RowsFor(shares: seq<ShareRow>, id: string): (rows: seq<ShareRow>)
    ensures forall i :: 0 <= i < |rows| ==> rows[i].resumeId == id && rows[i] in shares
    ensures forall i :: 0 <= i < |shares| && shares[i].resumeId == id ==> shares[i] in rows
  {
    Seqs.Filter((row: ShareRow) => row.resumeId == id, shares)
  }

  /** The same query with `.single()`: data only when exactly one row matches;
      with none or several it is null. */
  function ExistingToken(shares: seq<ShareRow>, id: string): (r: Option<string>)
    ensures r.Some? <==> |RowsFor(shares, id)| == 1
    ensures r.Some? ==> ShareRow(id, r.value) in shares
  {
    var rows := RowsFor(shares, id);
    if |rows| == 1 then Some(rows[0].token) else None
  }

  /** Which of the POST handler's database calls report an error: the
      ownership read of `resumes`, the lookup of an existing share, and the
      insert. */
  datatype Faults = Faults(resumeRead: bool, shareRead: bool, insert: bool)

  /** The existing-share lookup as POST sees it. The handler keeps only
      `data` and drops the read's `error`, so a failed read looks exactly like
      a resume with no share. */
  function Lookup(shares: seq<ShareRow>, id: string, failed: bool): (r: Option<string>)
    ensures r.Some? <==> !failed && |RowsFor(shares, id)| == 1
    ensures r.Some? ==> ShareRow(id, r.value) in shares
  {
    if failed then None else ExistingToken(shares, id)
  }

  /** The table invariant the handlers aim at: at most one row per resume, and
      every token is 32 lowercase hex digits. */
  ghost predicate Valid(shares: seq<ShareRow>) {
    && (forall i, j :: 0 <= i < j < |shares| ==> shares[i].resumeId != shares[j].resumeId)
    && (forall i :: 0 <= i < |shares| ==> IsToken(shares[i].token))
  }

  /** POST: rejects a missing resume id, then a missing user, then a resume the
      user does not own or that could not be read; returns the existing token
      if the lookup finds one; otherwise inserts a fresh token. A failed
      insert is thrown and caught as a 500. */
  function SharePost(t: Tables, resumeId: Field, user: Option<string>, random: seq<byte>, f: Faults): (s: Step<string>)
    requires |random| == 16
    ensures s.after.resumes == t.resumes
    ensures !Truthy(resumeId) ==> s == Step(Fail(400, "Resume ID is required"), t)
    ensures Truthy(resumeId) && user.None? ==> s == Step(Fail(401, "Unauthorized"), t)
    ensures Truthy(resumeId) && user.Some? && Store.OwnedResume(t.resumes, resumeId.value, user.value, f.resumeRead).None? ==>
      s == Step(Fail(404, "Resume not found"), t)
    ensures s.reply.Ok? <==>
      && Truthy(resumeId) && user.Some? && Store.OwnedResume(t.resumes, resumeId.value, user.value, f.resumeRead).Some?
      && (Lookup(t.shares, resumeId.value, f.shareRead).Some? || !f.insert)
    ensures s.reply.Ok? && Lookup(t.shares, resumeId.value, f.shareRead).Some? ==>
      s == Step(Ok(ExistingToken(t.shares, resumeId.value).value), t)
    ensures s.reply.Ok? && Lookup(t.shares, resumeId.value, f.shareRead).None? ==>
      && s.reply.value == Encode(random)
      && IsToken(s.reply.value)
      && s.after.shares == t.shares + [ShareRow(resumeId.value, s.reply.value)]
    ensures && Truthy(resumeId) && user.Some? && Store.OwnedResume(t.resumes, resumeId.value, user.value, f.resumeRead).Some?
            && Lookup(t.shares, resumeId.value, f.shareRead).None? && f.insert ==>
      s == Step(Fail(500, "Failed to create share"), t)
    ensures s.reply.Fail? ==> s.after == t
  {
    if !Truthy(resumeId) then Step(Fail(400, "Resume ID is required"), t)
    else if user.None? then Step(Fail(401, "Unauthorized"), t)
    else if Store.OwnedResume(t.resumes, resumeId.value, user.value, f.resumeRead).None? then Step(Fail(404, "Resume not found"), t)
    else match Lookup(t.shares, resumeId.value, f.shareRead)
      case Some(token) => Step(Ok(token), t)
      case None =>
        var token := Encode(random);
        if f.insert then Step(Fail(500, "Failed to create share"), t)
        else Step(Ok(token), t.(shares := t.shares + [ShareRow(resumeId.value, token)]))
  }

  /** DELETE: rejects a missing resume id, then a missing user, and otherwise
      deletes every share row of the resume. There is no ownership check. */
  function ShareDelete(t: Tables, resumeId: Field, user: Option<string>, deleteFails: bool): (s: Step<bool>)
    ensures s.after.resumes == t.resumes
    ensures !Truthy(resumeId) ==> s == Step(Fail(400, "Resume ID is required"), t)
    ensures Truthy(resumeId) && user.None? ==> s == Step(Fail(401, "Unauthorized"), t)
    ensures s.reply.Ok? <==> Truthy(resumeId) && user.Some? && !deleteFails
    ensures Truthy(resumeId) && user.Some? && deleteFails ==> s == Step(Fail(500, "Failed to remove share"), t)
    ensures s.reply.Ok? ==> s.reply.value && RowsFor(s.after.shares, resumeId.value) == []
    ensures s.reply.Ok? ==> forall i :: 0 <= i < |t.shares| && t.shares[i].resumeId != resumeId.value ==>
      t.shares[i] in s.after.shares
    ensures s.reply.Ok? ==> forall i :: 0 <= i < |s.after.shares| ==> s.after.shares[i] in t.shares
    ensures s.reply.Fail? ==> s.after == t
  {
    if !Truthy(resumeId) then Step(Fail(400, "Resume ID is required"), t)
    else if user.None? then Step(Fail(401, "Unauthorized"), t)
    else if deleteFails then Step(Fail(500, "Failed to remove share"), t)
    else
      var kept := Seqs.Filter((row: ShareRow) => row.resumeId != resumeId.value, t.shares);
      RowsForNone(kept, resumeId.value);
      Step(Ok(true), t.(shares := kept))
  }

  // ----------------------------------------------------------------- lemmas

  lemma RowsForNone(shares: seq<ShareRow>, id: string)
    requires forall i :: 0 <= i < |shares| ==> shares[i].resumeId != id
    ensures RowsFor(shares, id) == []
  {
    Seqs.FilterDropsAll((row: ShareRow) => row.resumeId == id, shares);
  }

  lemma RowsForAppend(a: seq<ShareRow>, b: seq<ShareRow>, id: string)
    ensures RowsFor(a + b, id) == RowsFor(a, id) + RowsFor(b, id)
  {
    Seqs.FilterAppend((row: ShareRow) => row.resumeId == id, a, b);
  }

  /** Under the invariant a resume has at most one share row. */
  lemma {:induction false} AtMostOneRow(shares: seq<ShareRow>, id: string)
    requires Valid(shares)
    ensures |RowsFor(shares, id)| <= 1
  {
    if |shares| > 0 {
      assert Valid(shares[1..]);
      if shares[0].resumeId == id {
        forall i | 0 <= i < |shares[1..]|
          ensures shares[1..][i].resumeId != id
        {
          assert shares[1..][i] == shares[i + 1];
        }
        RowsForNone(shares[1..], id);
      } else {
        AtMostOneRow(shares[1..], id);
      }
    }
  }

  /** POST keeps the table invariant unless a failed lookup hides a share
      the resume already has. */
  lemma SharePostKeepsValid(t: Tables, resumeId: Field, user: Option<string>, random: seq<byte>, f: Faults)
    requires |random| == 16
    requires Valid(t.shares)
    requires resumeId.Some? && f.shareRead ==> RowsFor(t.shares, resumeId.value) == []
    ensures Valid(SharePost(t, resumeId, user, random, f).after.shares)
  {
    var s := SharePost(t, resumeId, user, random, f);
    if s.after != t {
      var id := resumeId.value;
      AtMostOneRow(t.shares, id);
      assert |RowsFor(t.shares, id)| == 0;
      assert forall i :: 0 <= i < |t.shares| ==> t.shares[i].resumeId != id;
    }
  }

  /** A failed lookup on a shared resume makes POST insert a second row for
      it, with a new token, and the table leaves the invariant. */
  lemma FailedLookupBreaksValid(t: Tables, id: string, user: string, random: seq<byte>)
    requires |random| == 16
    requires id != ""
    requires Store.OwnedResume(t.resumes, id, user, false).Some?
    requires Valid(t.shares)
    requires RowsFor(t.shares, id) != []
    ensures var s := SharePost(t, Some(id), Some(user), random, Faults(false, true, false));
      && s.reply == Ok(Encode(random))
      && |RowsFor(s.after.shares, id)| == 2
      && !Valid(s.after.shares)
  {
    var s := SharePost(t, Some(id), Some(user), random, Faults(false, true, false));
    var row := ShareRow(id, Encode(random));
    assert s.after.shares == t.shares + [row];
    RowsForAppend(t.shares, [row], id);
    AtMostOneRow(t.shares, id);
    var prior := RowsFor(t.shares, id)[0];
    assert prior in t.shares;
    var k :| 0 <= k < |t.shares| && t.shares[k] == prior;
    assert s.after.shares[k].resumeId == s.after.shares[|t.shares|].resumeId;
  }

  /** DELETE keeps the table invariant. */
  lemma ShareDeleteKeepsValid(t: Tables, resumeId: Field, user: Option<string>, deleteFails: bool)
    requires Valid(t.shares)
    ensures Valid(ShareDelete(t, resumeId, user, deleteFails).after.shares)
  {
    var s := ShareDelete(t, resumeId, user, deleteFails);
    if s.reply.Ok? {
      FilterKeepsValid(t.shares, resumeId.value);
    }
  }

  lemma {:induction false} FilterKeepsValid(shares: seq<ShareRow>, id: string)
    requires Valid(shares)
    ensures Valid(Seqs.Filter((row: ShareRow) => row.resumeId != id, shares))
  {
    var keep := (row: ShareRow) => row.resumeId != id;
    if |shares| > 0 {
      assert Valid(shares[1..]);
      FilterKeepsValid(shares[1..], id);
      var rest := Seqs.Filter(keep, shares[1..]);
      forall i | 0 <= i < |rest|
        ensures rest[i].resumeId != shares[0].resumeId
      {
        var k :| 0 <= k < |shares[1..]| && shares[1..][k] == rest[i];
        assert shares[k + 1] == rest[i];
      }
    }
  }

  /** Under the invariant every token POST returns, old or new, is 32 lowercase hex digits. */
  lemma SharePostReturnsToken(t: Tables, resumeId: Field, user: Option<string>, random: seq<byte>, f: Faults)
    requires |random| == 16
    requires Valid(t.shares)
    requires SharePost(t, resumeId, user, random, f).reply.Ok?
    ensures IsToken(SharePost(t, resumeId, user, random, f).reply.value)
  {
    var existing := Lookup(t.shares, resumeId.value, f.shareRead);
    if existing.Some? {
      var row := ShareRow(resumeId.value, existing.value);
      assert row in t.shares;
      var k :| 0 <= k < |t.shares| && t.shares[k] == row;
      assert IsToken(t.shares[k].token);
    }
  }

  /** Once a POST has succeeded, the resume has exactly one share row, holding
      the returned token, unless a failed lookup hid the row it already had. */
  lemma SharePostRecordsToken(t: Tables, id: string, user: string, random: seq<byte>, f: Faults)
    requires |random| == 16
    requires |RowsFor(t.shares, id)| <= 1
    requires f.shareRead ==> RowsFor(t.shares, id) == []
    requires SharePost(t, Some(id), Some(user), random, f).reply.Ok?
    ensures var s := SharePost(t, Some(id), Some(user), random, f);
      RowsFor(s.after.shares, id) == [ShareRow(id, s.reply.value)]
  {
    var s := SharePost(t, Some(id), Some(user), random, f);
    var rows := RowsFor(t.shares, id);
    if |rows| == 1 {
      assert rows[0] in t.shares;
      assert rows[0].resumeId == id;
    } else {
      var row := ShareRow(id, s.reply.value);
      RowsForAppend(t.shares, [row], id);
    }
  }

  /** A POST leaves the share rows of every other resume as they were. */
  lemma SharePostKeepsOthers(t: Tables, resumeId: Field, user: Option<string>, random: seq<byte>, f: Faults, other: string)
    requires |random| == 16
    requires resumeId.Some? ==> other != resumeId.value
    ensures RowsFor(SharePost(t, resumeId, user, random, f).after.shares, other) == RowsFor(t.shares, other)
  {
    var s := SharePost(t, resumeId, user, random, f);
    if s.after.shares != t.shares {
      var row := ShareRow(resumeId.value, s.reply.value);
      RowsForAppend(t.shares, [row], other);
      assert [row][1..] == [];
    }
  }

  /** Two successive POSTs for the same resume return the same token, and the
      second changes nothing, provided both reads of the second succeed and the
      first did not miss an existing share. */
  lemma SharePostIdempotent(t: Tables, id: Field, user: Option<string>, r1: seq<byte>, r2: seq<byte>, f1: Faults, f2: Faults)
    requires |r1| == 16 && |r2| == 16
    requires Valid(t.shares)
    requires SharePost(t, id, user, r1, f1).reply.Ok?
    requires f1.shareRead ==> RowsFor(t.shares, id.value) == []
    requires !f2.resumeRead && !f2.shareRead
    ensures var first := SharePost(t, id, user, r1, f1);
      SharePost(first.after, id, user, r2, f2) == Step(first.reply, first.after)
  {
    var first := SharePost(t, id, user, r1, f1);
    AtMostOneRow(t.shares, id.value);
    SharePostRecordsToken(t, id.value, user.value, r1, f1);
  }

  /** Without the read guarantee idempotence fails: after a first POST shares
      an unshared resume, a second POST whose lookup fails returns a different
      token and leaves two rows for the resume. */
  lemma FailedLookupBreaksIdempotence(t: Tables, id: string, user: string, r1: seq<byte>, r2: seq<byte>)
    requires |r1| == 16 && |r2| == 16 && r1 != r2
    requires id != ""
    requires Store.OwnedResume(t.resumes, id, user, false).Some?
    requires Valid(t.shares)
    requires RowsFor(t.shares, id) == []
    ensures var first := SharePost(t, Some(id), Some(user), r1, Faults(false, false, false));
      var second := SharePost(first.after, Some(id), Some(user), r2, Faults(false, true, false));
      && first.reply == Ok(Encode(r1))
      && second.reply == Ok(Encode(r2))
      && second.reply != first.reply
      && !Valid(second.after.shares)
  {
    var first := SharePost(t, Some(id), Some(user), r1, Faults(false, false, false));
    SharePostKeepsValid(t, Some(id), Some(user), r1, Faults(false, false, false));
    SharePostRecordsToken(t, id, user, r1, Faults(false, false, false));
    FailedLookupBreaksValid(first.after, id, user, r2);
    DecodeEncode(r1);
    DecodeEncode(r2);
  }

  /** If the table already holds two rows for a resume, `.single()` finds none
      and POST inserts a third row with a new token. */
  lemma SharePostWithDuplicateRows(t: Tables, id: string, user: string, random: seq<byte>, f: Faults)
    requires |random| == 16
    requires id != ""
    requires |RowsFor(t.shares, id)| >= 2
    requires Store.OwnedResume(t.resumes, id, user, f.resumeRead).Some?
    requires !f.insert
    ensures SharePost(t, Some(id), Some(user), random, f)
         == Step(Ok(Encode(random)), t.(shares := t.shares + [ShareRow(id, Encode(random))]))
  {
  }

  /** DELETE succeeds even when the resume has no share, and leaves other
      resumes' rows and their order intact. */
  lemma ShareDeleteKeepsOthers(t: Tables, id: string, user: string, other: string)
    requires id != "" && other != id
    ensures var s := ShareDelete(t, Some(id), Some(user), false);
      && s.reply == Ok(true)
      && RowsFor(s.after.shares, other) == RowsFor(t.shares, other)
  {
    var s := ShareDelete(t, Some(id), Some(user), false);
    DeleteKeepsOthersRows(t.shares, id, other);
  }

  lemma {:induction false} DeleteKeepsOthersRows(shares: seq<ShareRow>, id: string, other: string)
    requires other != id
    ensures RowsFor(Seqs.Filter((row: ShareRow) => row.resumeId != id, shares), other) == RowsFor(shares, other)
  {
    if |shares| > 0 {
      DeleteKeepsOthersRows(shares[1..], id, other);
    }
  }

  /** DELETE does not look at who asks: any signed-in user gets the same result. */
  lemma ShareDeleteIgnoresOwner(t: Tables, id: Field, u1: string, u2: string, deleteFails: bool)
    ensures ShareDelete(t, id, Some(u1), deleteFails) == ShareDelete(t, id, Some(u2), deleteFails)
  {
  }
}

=== FILE: store.dfy ===
/** The `resumes` table the route handlers query, as a map from resume id to row. */
module Store {
  import opened Wrappers
  import opened Resume

  datatype ResumeRow = ResumeRow(userId: string, title: string, content: ResumeData, templateId: string)

  type Resumes = map<string, ResumeRow>

  /** `.from("resumes").select(...).eq("id", id).eq("user_id", user).single()`
      as the handlers test it (`error || !resume`): the row, when the read
      succeeds and there is one with that id belonging to `user`. `readFails`
      stands for the read reporting an error, which the handlers treat like
      a missing row. */
  function OwnedResume(db: Resumes, id: string, user: string, readFails: bool): (r: Option<ResumeRow>)
    ensures r.Some? <==> !readFails && id in db && db[id].userId == user
    ensures r.Some? ==> r.value == db[id]
  {
    if !readFails && id in db && db[id].userId == user then Some(db[id]) else None
  }
}

=== FILE: wrappers.dfy ===
/** Optional values: the model's stand-in for JavaScript's `undefined`/`null`. */
module Wrappers {

  datatype Option<+T> = None | Some(value: T) {

    /** The wrapped value, or `default` when there is none. */
    function GetOr(default: T): T {
      match this
      case Some(v) => v
      case None => default
    }
  }
}
